=== FILE: README.md ===
# Collectibles dashboard — a Dafny model

This project models the client side of a dashboard that lists collectible items from a remote
catalog. It covers:

- the three views: today, last three days, and saved;
- the debounced search box;
- the save toggle;
- per-view scroll restoration;
- the pieces around the dashboard: the item card's local state, the change-credentials form,
  the token store and request headers, and the route guard of the application shell.

Everything is modelled as immutable records and pure transition functions. Each event is a
function of the current state and the event's outcome: a settled query, a completed listing
fetch, a completed stats fetch, a completed save toggle, or a tab change. It returns the next
state and the effects it starts: requests, toasts, and the deferred scroll restore. The server
is never modelled. Each response is an input to the event that delivers it.

Modules (one file each):

- `Options` (`options.dfy`): optional values, used for JavaScript `undefined`/`null`.
- `Text` (`text.dfy`): `trim` with ECMAScript's exact whitespace set, `indexOf`/`includes`,
  ASCII-case-insensitive search, and decimal rendering.
- `Subsequences` (`subsequences.dfy`): `Array.prototype.filter`, and its characterisation as
  the increasing embedding at exactly the positions where the predicate holds.
- `Calendar` (`calendar.dfy`): `isToday`/`isLast3Days` over integer millisecond timestamps.
- `Card` (`card.dfy`): the `CollectibleItem` record and the card's heart, viewed flag, image
  fallback and button label.
- `Dashboard` (`dashboard.dfy`): the dashboard state and its events.
- `Auth` (`auth.dfy`): the token store over a key-value map, with change notifications, and the
  headers `authFetch`/`apiFetch` build.
- `Settings` (`settings.dfy`): the credentials form.
- `Routes` (`routes.dfy`): route resolution, and the shell re-reading its token on window events.

Modelling choices:

- **Dates.** A timestamp is an integer number of milliseconds, or `Invalid` when its string did
  not parse. Local time is UTC plus a fixed zone offset. The local calendar date is the local day
  number `floor((t + offset) / 86400000)`. Two instants share year, month and day-of-month
  exactly when they share this number, so `isToday`'s year/month/day comparison is a comparison
  of day numbers. Parsing date strings is a parameter (`parse: string -> Instant`).
- **JavaScript truthiness is explicit.**
  - An empty `createdAt` falls through to `date`.
  - A missing `saved` counts as false.
  - An empty stored token counts as "no token". This holds for the route guard, the
    `Authorization` header and the settings page guard.
  - Missing stats fields become 0.
- **Behaviour of the code worth knowing:**
  - The dashboard's save toggle is not optimistic. `items` changes only after the update request
    succeeds, and a failure changes nothing. The only optimistic flip is the card's own heart,
    which is never rolled back and never resynchronised from the item.
  - On success, `items` is patched with the item the client sent, not with one returned by the
    server. Every item with that id becomes a copy of the first such item, with `saved` negated.
  - The endpoint for "all items" and the default branch of the view filter cannot be reached,
    because the active view is always one of the three tabs.
  - The settled query is the trimmed raw query.

## Model

| member | source | states |
|---|---|---|
| `Text.Trim` | src/components/CollectiblesDashboard.tsx:36 | the settled query is a contiguous slice of the raw text; everything cut away is ECMAScript whitespace; neither end of the result is whitespace |
| `Text.TrimIdempotent` | src/components/CollectiblesDashboard.tsx:36 | trimming an already settled query changes nothing |
| `Text.IndexOf` | src/components/CollectibleCard.tsx:47 | `indexOf` gives -1 exactly when the pattern occurs nowhere, else the first occurrence |
| `Subsequences.FilterEmbedding` | src/components/CollectiblesDashboard.tsx:215-240 | the kept items sit in `items`, in strictly increasing positions, at the listed positions |
| `Subsequences.PositionsExact` | src/components/CollectiblesDashboard.tsx:215-240 | the listed positions are exactly those whose item the predicate accepts |
| `Calendar.IsToday` | src/components/CollectiblesDashboard.tsx:41-61 | `isToday`'s comparison of local year, month and day holds exactly for valid instants between 00:00:00.000 and 23:59:59.999 of the current local date |
| `Calendar.TodayBoundaries` | src/components/CollectiblesDashboard.tsx:51-56 | local midnight today and 23:59:59.999 today are today; one millisecond outside either end is not |
| `Calendar.IsLast3Days` | src/components/CollectiblesDashboard.tsx:189-213 | the millisecond window of `isLast3Days` holds exactly when the instant is valid and its local date is today or one of the three days before |
| `Calendar.Last3DaysBoundaries` | src/components/CollectiblesDashboard.tsx:199-208 | both ends of the window are inclusive to the millisecond, and one millisecond outside either end is excluded |
| `Calendar.FourDaysAgoExcluded` | src/components/CollectiblesDashboard.tsx:199-208 | anything on the fourth local day before today, or earlier, is outside the window |
| `Calendar.TodayImpliesLast3Days` | src/components/CollectiblesDashboard.tsx:189-213 | every instant that is today is within the last three days |
| `Calendar.InvalidInNoWindow` | src/components/CollectiblesDashboard.tsx:43-49 | an unparseable date belongs to neither window |
| `Calendar.NowInBothWindows` | src/components/CollectiblesDashboard.tsx:51-56 | the current instant is in both windows |
| `Card.Mount` | src/components/CollectibleCard.tsx:24-25 | the heart starts on exactly when `saved` is true; the viewed flag starts on exactly when `viewed` is true |
| `Card.ToggleLike` | src/components/CollectibleCard.tsx:32-35 | clicking the heart negates it at once, leaves the viewed flag alone, and reports exactly the item's id |
| `Card.ToggleLikeTwice` | src/components/CollectibleCard.tsx:32-35 | two heart clicks restore the card |
| `Card.ClickView` | src/components/CollectibleCard.tsx:81-88 | clicking View makes the card viewed whatever it was, keeps the heart, marks the item's id viewed and opens its URL |
| `Card.ClickViewMonotone` | src/components/CollectibleCard.tsx:84 | View never clears the viewed flag, and a second click changes nothing |
| `Card.PropsChanged` | src/components/CollectibleCard.tsx:28-30 | a new item prop with a different `viewed` or `id` resynchronises the viewed flag; otherwise nothing changes; the heart is never resynchronised |
| `Card.InitialImage` | src/components/CollectibleCard.tsx:42 | the image is the item's, or the placeholder when that is empty |
| `Card.OnImageError` | src/components/CollectibleCard.tsx:45-50 | after a load error the source contains the placeholder; a source already pointing at it is kept; the source is the resolved URL the element reports |
| `Card.OnImageErrorIdempotent` | src/components/CollectibleCard.tsx:45-50 | a second load error changes nothing |
| `Card.ViewLabelAfterClick` | src/components/CollectibleCard.tsx:90 | the label is "View Again" exactly when the card is viewed, otherwise "View"; after a View click it is "View Again" |
| `Dashboard.ListRequestFor` | src/components/CollectiblesDashboard.tsx:80-85 | the request goes to the active view's endpoint and carries `q` exactly when the settled query is non-empty |
| `Dashboard.EndpointsDistinct` | src/components/CollectiblesDashboard.tsx:81-83 | the three views have three different endpoints |
| `Dashboard.EndpointIdentifiesTab` | src/components/CollectiblesDashboard.tsx:81-83 | the endpoint path determines the view it was requested for |
| `Dashboard.Init` | src/components/CollectiblesDashboard.tsx:11-19 | the first render shows the today view with no items, empty raw and settled queries, zero counts and a zero scroll entry for every view, and asks for stats and the today listing without `q` |
| `Dashboard.SetQuery` | src/components/CollectiblesDashboard.tsx:256-260 | a keystroke changes the raw query and nothing else |
| `Dashboard.Settle` | src/components/CollectiblesDashboard.tsx:35-38 | when the timer fires, the settled query becomes the trimmed raw query; exactly when that value changed, the stats request and then the active view's listing request carrying the new query start |
| `Dashboard.SettlesOnLastKeystroke` | src/components/CollectiblesDashboard.tsx:35-38 | after any run of keystrokes, the value that settles is the last one, trimmed |
| `Dashboard.SettledQueryIsTrimmed` | src/components/CollectiblesDashboard.tsx:84-85 | the `q` of the listing request a settled query starts (and of any request built from the settled state) never starts or ends with whitespace, and it is absent exactly when the trimmed query is empty |
| `Dashboard.CreationInstant` | src/components/CollectiblesDashboard.tsx:64-73 | the instant the classifiers see is the parse of a non-empty `createdAt`, else of a non-empty `date`, else the current instant |
| `Dashboard.CreationSource` | src/components/CollectiblesDashboard.tsx:64-73 | the creation date is a non-empty `createdAt`, else a non-empty `date`, else the current instant exactly when neither is present |
| `Dashboard.FilteredItems` | src/components/CollectiblesDashboard.tsx:215-240 | the displayed items are a subsequence of `items`, and an item is displayed exactly when it is held and the active view accepts it |
| `Dashboard.FilteredSelectsExactly` | src/components/CollectiblesDashboard.tsx:215-240 | the displayed items are an order-preserving subsequence of `items`, at exactly the positions of the items the active view accepts |
| `Dashboard.SavedViewMembership` | src/components/CollectiblesDashboard.tsx:235-236 | the saved view shows an item exactly when the item is held and `saved` is true |
| `Dashboard.DateViewMembership` | src/components/CollectiblesDashboard.tsx:217-234 | the date views show an item exactly when its resolved creation instant falls in the view's window |
| `Dashboard.TodayViewWithinLast3Days` | src/components/CollectiblesDashboard.tsx:215-234 | whatever the today view shows, the last-three-days view shows too |
| `Dashboard.UndatedItemInDateViews` | src/components/CollectiblesDashboard.tsx:70-72 | an item without a creation date is shown by both date views |
| `Dashboard.TodayViewScenario` | src/components/CollectiblesDashboard.tsx:217-225 | of one item created now and one created five days ago, the today view shows only the first |
| `Dashboard.FetchCompleted` | src/components/CollectiblesDashboard.tsx:89-124 | only an ok response with an array replaces `items`, wholesale, and schedules the scroll restore, followed by the no-items toast exactly when the array is empty; any other outcome keeps the whole state and raises one connection-error toast, whose text is the rejection's message (or the fixed fallback), the status line, the parse error's message, or the invalid-format text |
| `Dashboard.BadStatusNotice` | src/components/CollectiblesDashboard.tsx:89-91 | a non-ok status is reported with its number and keeps the items |
| `Dashboard.StatsCompleted` | src/components/CollectiblesDashboard.tsx:21-30 | a failed request, a non-ok status, or a body that is not JSON or is JSON `null` changes nothing; any other ok body sets all three counts, a missing or falsy one to 0 |
| `Dashboard.StatsResponseDecidesCounts` | src/components/CollectiblesDashboard.tsx:26-28 | after an ok response with fields, the counts do not depend on the counts before, so a repeated response changes nothing more |
| `Dashboard.StatsNonObjectZeroes` | src/components/CollectiblesDashboard.tsx:26-28 | an ok body that is JSON but not an object (an array, a number, a string) zeroes all three counts |
| `Dashboard.Refresh` | src/components/CollectiblesDashboard.tsx:164-179 | refresh asks for stats only and changes no state |
| `Dashboard.FirstWithId` | src/components/CollectiblesDashboard.tsx:132 | `find` yields nothing exactly when no item has the id, else the first item with it |
| `Dashboard.ReplaceById` | src/components/CollectiblesDashboard.tsx:147-149 | the patch keeps length and order, replaces every item with the id, and keeps the others |
| `Dashboard.Toggled` | src/components/CollectiblesDashboard.tsx:134 | the sent item differs from the original only in `saved`, which is negated |
| `Dashboard.ToggleSave` | src/components/CollectiblesDashboard.tsx:130-162 | an unknown id does nothing; otherwise the negated item is sent first; failure keeps the state and raises a toast; success sends then asks for stats, changes only `items`, and outside the un-save-in-saved-view case replaces each item with the target id by the sent one and keeps every other item in place |
| `Dashboard.ToggleFailureKeepsItems` | src/components/CollectiblesDashboard.tsx:142-144 | a failed toggle changes no item |
| `Dashboard.ToggleSuccessOnlyTargetChanges` | src/components/CollectiblesDashboard.tsx:147-149 | with unique ids, a successful toggle that does not remove changes only the toggled item, and only its `saved` |
| `Dashboard.ToggleSuccessRemovesFromSavedView` | src/components/CollectiblesDashboard.tsx:150-152 | a successful unsave on the saved view removes the item; the rest stay in order |
| `Dashboard.ToggleKeepsIdsUnique` | src/components/CollectiblesDashboard.tsx:147-152 | toggling keeps ids unique |
| `Dashboard.ToggleTwiceRestoresFlag` | src/components/CollectiblesDashboard.tsx:134-149 | outside the saved view, two successful toggles restore the item's saved flag and leave the others alone |
| `Dashboard.SavedViewScenario` | src/components/CollectiblesDashboard.tsx:136-153 | unsaving on the saved view sends `saved=false`, then asks for stats, and leaves no item with that id |
| `Dashboard.ChangeTab` | src/components/CollectiblesDashboard.tsx:182-186 | a tab change records the offset under the outgoing view, then switches; a different view starts stats and listing requests; the same view starts nothing |
| `Dashboard.ChangeTabRecordsOutgoingOnly` | src/components/CollectiblesDashboard.tsx:184 | only the outgoing view's scroll entry changes |
| `Dashboard.RestoreOffset` | src/components/CollectiblesDashboard.tsx:100 | the restore reads the active view's entry, and 0 for a view never recorded |
| `Dashboard.ScrollContinuity` | src/components/CollectiblesDashboard.tsx:99-101 | leaving a view at offset y and coming back restores y once the listing arrives |
| `Dashboard.ScrollMapStaysTotal` | src/components/CollectiblesDashboard.tsx:19 | every view keeps a scroll entry |
| `Auth.GetToken` | src/lib/utils.ts:16-18 | a token is read exactly when storage is available and holds the token key, and it is the stored value |
| `Auth.SaveToken` | src/lib/utils.ts:11-14 | save writes only the token key and always notifies, even when storage is unavailable |
| `Auth.ClearToken` | src/lib/utils.ts:20-23 | clear removes only the token key and always notifies |
| `Auth.SaveThenGet` | src/lib/utils.ts:11-18 | a saved token reads back, when storage is available |
| `Auth.ClearThenGet` | src/lib/utils.ts:16-23 | after clearing, no token reads back |
| `Auth.SaveOverwritesAndClearUndoes` | src/lib/utils.ts:11-23 | the later save wins, and clearing after a save is the same as clearing |
| `Auth.ApiHeaders` | src/lib/utils.ts:41-51 | `apiFetch` keeps the caller's headers, defaults only a missing content type, adds the ngrok header, and never sets its own `Authorization`; the key set is exactly the caller's plus the content type, plus the ngrok key for ngrok URLs |
| `Auth.AuthHeaders` | src/lib/utils.ts:25-38 | `authFetch` sets `Authorization: Bearer <token>` exactly when a non-empty token is held, with the same content-type and ngrok rules; the key set is exactly the caller's plus those it adds |
| `Auth.AuthHeadersExtendApiHeaders` | src/lib/utils.ts:25-51 | the two header sets differ only in `Authorization`, and only when a token is held |
| `Auth.NgrokHeaderAlwaysSet` | src/lib/utils.ts:33-35 | the configured base URL contains "ngrok", so every request carries the skip header |
| `Auth.StoredTokenIsSent` | src/lib/utils.ts:26-28 | a saved token is sent as a bearer credential, and a cleared one is not |
| `Settings.Validate` | src/pages/Settings.tsx:27-28 | empty username and password give "Nothing to update"; a non-empty mismatched password gives "Passwords do not match"; everything else passes |
| `Settings.ValidationPrecedence` | src/pages/Settings.tsx:27-28 | "Nothing to update" takes precedence; a username-only change passes whatever the confirmation holds |
| `Settings.FailureMessage` | src/pages/Settings.tsx:35-44 | an answer's error is its non-empty `detail`, else "Update failed"; a thrown error (including the `TypeError` of a JSON `null` body) shows its own non-empty message, else "Update failed" |
| `Settings.Submit` | src/pages/Settings.tsx:25-46 | invalid forms show the validation error and send nothing; valid ones send first; the input fields are never changed; success shows the message, removes only the token entry and sends once before scheduling the login page; failure shows the error and keeps the token; the form ends idle |
| `Settings.SubmitShowsExactlyOneFeedback` | src/pages/Settings.tsx:26-44 | message and error are cleared first, and exactly one of them is shown afterwards |
| `Settings.SubmitEndsIdle` | src/pages/Settings.tsx:29-45 | the form is idle once submit finishes |
| `Settings.ChangeRequestCarriesToken` | src/pages/Settings.tsx:31-34 | the change request carries the stored bearer token and a JSON content type |
| `Settings.RedirectsOnMount` | src/pages/Settings.tsx:19-22 | the page leaves for the login page exactly when no non-empty token is stored |
| `Routes.Resolve` | src/App.tsx:36-40 | `/` and `/settings` render with a token and otherwise redirect to `/login`; `/login` redirects to `/` with a token and otherwise renders; any other path is not found |
| `Routes.PatternsExclusive` | src/App.tsx:36-38 | no path matches two route patterns |
| `Routes.ProtectedPagesNeedToken` | src/App.tsx:36-38 | the index and settings pages are shown only with a token, and the login page only without one |
| `Routes.RedirectsSettle` | src/App.tsx:36-38 | following a redirect always lands on a page |
| `Routes.CaseIgnored` | src/App.tsx:36-38 | for every path, folding it to lower case does not change where it leads |
| `Routes.TrailingSlashIgnored` | src/App.tsx:36-38 | for every path, one more trailing slash does not change where it leads; the empty path leads where "/" does |
| `Routes.UnknownPathNotFound` | src/App.tsx:40 | `/items` and `/login/x` lie outside the table and are not found, with or without a token |
| `Routes.Boot` | src/App.tsx:17 | the shell starts with a token exactly when storage is available and holds the token key, and it is the stored value |
| `Routes.BootAfterSaveOrClear` | src/App.tsx:17 | a shell started after a save holds the saved token; after a clear it holds none |
| `Routes.OnWindowEvent` | src/App.tsx:18-26 | the shell re-reads the token on storage and token-change events, and on nothing else |
| `Routes.SignInUnlocksIndex` | src/App.tsx:19-21 | after a non-empty token is saved and its notification delivered, `/` shows the index and `/login` redirects home |
| `Routes.CredentialsChangeSignsOut` | src/pages/Settings.tsx:39-41 | after a successful credentials change, the shell holds no token and `/settings` redirects to `/login` |

## Left out

- Network I/O, JSON parsing and hosts are not modelled. Every response is an input: an ok flag,
  a status, and a payload shape. The fixed hosts of the dashboard and card requests are not
  kept. URL encoding of `q` is not modelled.
- The 350 ms debounce timer (`setTimeout`/`clearTimeout`) is not modelled. Only the settled
  value is: the trimmed last raw query.
- Concurrency is not modelled. Events run one at a time, so these are outside the model:
  out-of-order listing responses, the stale `items` captured by the toggle handler, and the
  view captured by a listing fetch still in flight.
- Date-string parsing is an abstract parameter.
- Reads of the current time are not modelled separately. Every `new Date()` of one render is
  taken to be the same instant `Clock.now`. This covers the fallback creation date in
  `getItemCreationDate` and the "now" read by `isToday` and by `isLast3Days`.
- UndatedItemInDateViews: holds only because the fallback creation date and the classifiers'
  "now" are one instant. In the source they are separate clock reads. If local midnight falls
  between them, an undated item fails `isToday`.
- Strings are sequences of Unicode scalar values, not UTF-16 code units. Positions from
  `Text.IndexOf` differ from JavaScript's after a character outside the Basic Multilingual Plane.
  Lone surrogates cannot be represented. Only whether the placeholder path occurs is used, and
  that is the same either way.
- `Dashboard.ChangeTab`: scroll offsets are integers. `window.scrollY` is a double and can be
  fractional. The recorded value is only stored and restored, so rounding plays no part.
- `Calendar`: the local time zone is a fixed offset. Daylight-saving changes are not modelled,
  and neither is the valid range of JavaScript time values.
- `window.scrollTo` and `requestAnimationFrame` become a `ScrollTo` effect.
- Toasts become `Notice` values. Their titles and durations are dropped.
- Console logging, the fade animation in `handleRefresh`, and `window.open` are left out. The
  opened URL is kept as an output.
- The empty-list texts are presentational.
- `Card.ClickView`: the fire-and-forget `viewed` request is reported as an id. Its failure is
  swallowed by the source, so it has no modelled outcome.
- The search box and navigation components are presentational. The login page is request
  plumbing. `cn` wraps styling libraries that are not part of this model.
- `Auth`: storage is either available (a map) or unavailable (every access throws). A failing
  write to an available storage, such as exceeding the quota, is not modelled.
- `Auth`: caller-supplied header names are taken as already lower-case, the form a `Headers`
  object keeps them in. Header value normalisation is not modelled.
- `Auth.AuthHeaders`: a token that is not a valid header value (one holding CR, LF, NUL or a
  character above U+00FF) makes `headers.set` throw, and the request is never sent. The model
  always returns a header map; a stored token is taken to be a valid header value.
- `Routes.Resolve`: only static, case-insensitive route matching with trailing slashes is
  modelled. An empty location path is matched as "/". Percent-decoding of paths and the
  router's ranking are not, because none of the patterns overlap.
- The timed navigation after a credentials change is the effect `NavigateToLoginLater`.
  Navigation itself is not modelled.
- JSON values are assumed to have their declared types:
  - counts are integers;
  - `saved` and `viewed` are booleans;
  - `detail` is a string.

=== FILE: auth.dfy ===
/**
 * The session helpers: the bearer token kept in the browser's key-value storage, the change
 * notification every write emits, and the headers `authFetch` and `apiFetch` put on a request.
 */
module Auth {
  import opened Options
  import opened Text

  /** The storage key the token lives under. */
  const TokenKey: string := "pen_admin_token"

  /** The base URL of the API the pages talk to. */
  const ApiBase: string := "https://jennie-conceptive-uncomprehendingly.ngrok-free.app"

  /**
   * The browser's `localStorage`: a string-to-string map, or unavailable, in which case every
   * access throws and the helpers swallow the error.
   */
  datatype Storage = Unavailable | Available(entries: map<string, string>)

  /** The window event the helpers dispatch after every write. */
  datatype Notification = AuthTokenChanged

  /** The storage after a helper ran and the notifications it dispatched. */
  datatype StoreUpdate = StoreUpdate(storage: Storage, notifications: seq<Notification>)

  /** `getAuthToken`: the stored token, `None` when there is none or storage is unavailable. */
  function GetToken(st: Storage): (r: Option<string>)
    ensures r.Some? <==> st.Available? && TokenKey in st.entries
    ensures r.Some? ==> r.value == st.entries[TokenKey]
  {
    match st
    case Unavailable => None
    case Available(m) => if TokenKey in m then Some(m[TokenKey]) else None
  }

  /** `saveAuthToken`: stores the token under its key and notifies, even when storing failed. */
  function SaveToken(st: Storage, token: string): (r: StoreUpdate)
    ensures r.notifications == [AuthTokenChanged]
    ensures st.Unavailable? ==> r.storage == st
    ensures st.Available? ==> r.storage.Available?
    ensures st.Available? ==> r.storage.entries.Keys == st.entries.Keys + {TokenKey}
    ensures st.Available? ==> forall k :: k in st.entries && k != TokenKey ==> r.storage.entries[k] == st.entries[k]
  {
    match st
    case Unavailable => StoreUpdate(st, [AuthTokenChanged])
    case Available(m) => StoreUpdate(Available(m[TokenKey := token]), [AuthTokenChanged])
  }

  /** `clearAuthToken`: removes the token's key and notifies, even when removing failed. */
  function ClearToken(st: Storage): (r: StoreUpdate)
    ensures r.notifications == [AuthTokenChanged]
    ensures st.Unavailable? ==> r.storage == st
    ensures st.Available? ==> r.storage.Available?
    ensures st.Available? ==> r.storage.entries.Keys == st.entries.Keys - {TokenKey}
    ensures st.Available? ==> forall k :: k in r.storage.entries ==> r.storage.entries[k] == st.entries[k]
  {
    match st
    case Unavailable => StoreUpdate(st, [AuthTokenChanged])
    case Available(m) => StoreUpdate(Available(m - {TokenKey}), [AuthTokenChanged])
  }

  /** Saving then reading gives back the saved token whenever storage is available. */
  lemma SaveThenGet(st: Storage, token: string)
    ensures st.Available? ==> GetToken(SaveToken(st, token).storage) == Some(token)
    ensures st.Unavailable? ==> GetToken(SaveToken(st, token).storage) == None
  {
  }

  /** Clearing then reading finds no token, whatever the storage held. */
  lemma ClearThenGet(st: Storage)
    ensures GetToken(ClearToken(st).storage) == None
  {
  }

  /** A later save wins over an earlier one, and clearing undoes a save completely. */
  lemma SaveOverwritesAndClearUndoes(st: Storage, a: string, b: string)
    ensures GetToken(SaveToken(SaveToken(st, a).storage, b).storage) == GetToken(SaveToken(st, b).storage)
    ensures ClearToken(SaveToken(st, a).storage).storage == ClearToken(st).storage
  {
    if st.Available? {
      assert (st.entries[TokenKey := a]) - {TokenKey} == st.entries - {TokenKey};
    }
  }

  // ---------------------------------------------------------------------------------------
  // Request headers

  /** Request headers by lower-case name, the form a `Headers` object keeps them in. */
  type Headers = map<string, string>

  const Authorization: string := "authorization"
  const ContentType: string := "content-type"
  const NgrokSkip: string := "ngrok-skip-browser-warning"

  /** JavaScript truthiness of the token: present and non-empty. */
  predicate HasToken(token: Option<string>) {
    token.Some? && token.value != ""
  }

  /** The skip-interstitial header is due when the base URL or the request URL mentions ngrok (any case). */
  predicate UsesNgrok(url: string) {
    Contains(ApiBase, "ngrok") || ContainsIgnoringAsciiCase(url, "ngrok")
  }

  /** The header steps `authFetch` and `apiFetch` share: a default content type and the ngrok header. */
  function CommonHeaders(h: Headers, url: string): Headers {
    var withType := if ContentType in h then h else h[ContentType := "application/json"];
    if UsesNgrok(url) then withType[NgrokSkip := "1"] else withType
  }

  /** The headers `apiFetch` sends: the caller's, a default content type, the ngrok header; never a credential of its own. */
  function ApiHeaders(caller: Headers, url: string): (h: Headers)
    ensures ContentType in h
    ensures ContentType in caller ==> h[ContentType] == caller[ContentType]
    ensures ContentType !in caller ==> h[ContentType] == "application/json"
    ensures Authorization in h <==> Authorization in caller
    ensures Authorization in caller ==> h[Authorization] == caller[Authorization]
    ensures UsesNgrok(url) ==> NgrokSkip in h && h[NgrokSkip] == "1"
    ensures forall k :: k in caller && k != ContentType && k != NgrokSkip ==> k in h && h[k] == caller[k]
    ensures h.Keys == caller.Keys + {ContentType} + (if UsesNgrok(url) then {NgrokSkip} else {})
  {
    CommonHeaders(caller, url)
  }

  /**
   * The headers `authFetch` sends: as `apiFetch`, and in addition `Authorization: Bearer <token>`
   * exactly when a non-empty token is stored, replacing any the caller supplied.
   */
  function AuthHeaders(caller: Headers, token: Option<string>, url: string): (h: Headers)
    ensures HasToken(token) ==> Authorization in h && h[Authorization] == "Bearer " + token.value
    ensures !HasToken(token) ==> (Authorization in h <==> Authorization in caller)
    ensures !HasToken(token) && Authorization in caller ==> h[Authorization] == caller[Authorization]
    ensures ContentType in h
    ensures ContentType in caller ==> h[ContentType] == caller[ContentType]
    ensures ContentType !in caller ==> h[ContentType] == "application/json"
    ensures UsesNgrok(url) ==> NgrokSkip in h && h[NgrokSkip] == "1"
    ensures h.Keys == caller.Keys + {ContentType} + (if UsesNgrok(url) then {NgrokSkip} else {})
      + (if HasToken(token) then {Authorization} else {})
  {
    var h0 := if HasToken(token) then caller[Authorization := "Bearer " + token.value] else caller;
    CommonHeaders(h0, url)
  }

  /** `authFetch` differs from `apiFetch` in the `Authorization` header alone, and only when a token is held. */
  lemma AuthHeadersExtendApiHeaders(caller: Headers, token: Option<string>, url: string)
    ensures !HasToken(token) ==> AuthHeaders(caller, token, url) == ApiHeaders(caller, url)
    ensures HasToken(token) ==>
      AuthHeaders(caller, token, url) == ApiHeaders(caller, url)[Authorization := "Bearer " + token.value]
  {
  }

  /** The configured base URL mentions ngrok, so every request carries the skip header. */
  lemma NgrokHeaderAlwaysSet(caller: Headers, token: Option<string>, url: string)
    ensures UsesNgrok(url)
    ensures ApiHeaders(caller, url)[NgrokSkip] == "1"
    ensures AuthHeaders(caller, token, url)[NgrokSkip] == "1"
  {
    assert OccursAt(ApiBase, "ngrok", 44);
  }

  /** `authFetch` against the storage: a saved non-empty token is sent, a cleared one is not. */
  lemma StoredTokenIsSent(st: Storage, token: string, caller: Headers, url: string)
    requires st.Available? && token != ""
    requires Authorization !in caller
    ensures AuthHeaders(caller, GetToken(SaveToken(st, token).storage), url)[Authorization] == "Bearer " + token
    ensures Authorization !in AuthHeaders(caller, GetToken(ClearToken(st).storage), url)
  {
    SaveThenGet(st, token);
    ClearThenGet(st);
  }
}

=== FILE: calendar.dfy ===
/**
 * The dashboard's date-window classifiers `isToday` and `isLast3Days`.
 *
 * An instant is a millisecond time value, or `Invalid` when the date string did not parse
 * (JavaScript's `NaN` time). Local time is UTC shifted by a fixed zone offset, so the local
 * calendar date of an instant is identified by its local day number: two instants share
 * year, month and day-of-month exactly when they share a local day number.
 */
module Calendar {

  const MsPerDay: int := 86_400_000

  datatype Instant = Invalid | At(ms: int)

  /** The current instant and the local zone's offset from UTC, both in milliseconds. */
  datatype Clock = Clock(now: int, offset: int)

  /** The local day number of time value `t`: whole local days since the epoch, rounded down. */
  function LocalDay(t: int, offset: int): int {
    (t + offset) / MsPerDay
  }

  /** The time value of 00:00:00.000 local time on local day `d`. */
  function StartOfDay(d: int, offset: int): int {
    d * MsPerDay - offset
  }

  /** The time value of 23:59:59.999 local time on local day `d`. */
  function EndOfDay(d: int, offset: int): int {
    StartOfDay(d + 1, offset) - 1
  }

  /** Local day number of the clock's current instant. */
  function Today(clk: Clock): int {
    LocalDay(clk.now, clk.offset)
  }

  /** A day runs from its start to its end: `t` is on day `d` exactly when it lies within those bounds. */
  lemma DayBounds(t: int, d: int, offset: int)
    ensures LocalDay(t, offset) == d <==> StartOfDay(d, offset) <= t <= EndOfDay(d, offset)
  {
    var x := t + offset;
    assert x == (x / MsPerDay) * MsPerDay + x % MsPerDay;
    if StartOfDay(d, offset) <= t <= EndOfDay(d, offset) {
      assert d * MsPerDay <= x < d * MsPerDay + MsPerDay;
    }
  }

  /** Day numbers are monotone in the time value. */
  lemma LocalDayMonotone(t: int, u: int, offset: int)
    requires t <= u
    ensures LocalDay(t, offset) <= LocalDay(u, offset)
  {
    var x, y := t + offset, u + offset;
    assert x == (x / MsPerDay) * MsPerDay + x % MsPerDay;
    assert y == (y / MsPerDay) * MsPerDay + y % MsPerDay;
  }

  /**
   * The three-day window at day granularity: a time value lies between 00:00:00.000 local time
   * three days before today and 23:59:59.999 today exactly when its local day is today or one of
   * the three days before.
   */
  lemma Last3DaysWindowByDay(t: int, clk: Clock)
    ensures StartOfDay(Today(clk) - 3, clk.offset) <= t <= EndOfDay(Today(clk), clk.offset) <==>
      Today(clk) - 3 <= LocalDay(t, clk.offset) <= Today(clk)
  {
    var d, off := LocalDay(t, clk.offset), clk.offset;
    DayBounds(t, d, off);
    DayBounds(StartOfDay(Today(clk) - 3, off), Today(clk) - 3, off);
    DayBounds(EndOfDay(Today(clk), off), Today(clk), off);
    if StartOfDay(Today(clk) - 3, off) <= t <= EndOfDay(Today(clk), off) {
      LocalDayMonotone(StartOfDay(Today(clk) - 3, off), t, off);
      LocalDayMonotone(t, EndOfDay(Today(clk), off), off);
    }
  }

  /**
   * `isToday`: the instant is valid and has the current local year, month and day, which makes
   * it exactly an instant from 00:00:00.000 to 23:59:59.999 of the current local date. A date
   * string that does not parse gives false.
   */
  function IsToday(i: Instant, clk: Clock): (b: bool)
    ensures b <==> i.At? && StartOfDay(Today(clk), clk.offset) <= i.ms <= EndOfDay(Today(clk), clk.offset)
  {
    if i.At? then
      DayBounds(i.ms, Today(clk), clk.offset);
      LocalDay(i.ms, clk.offset) == Today(clk)
    else false
  }

  /**
   * `isLast3Days`: the instant is valid and lies between 00:00:00.000 local time three calendar
   * days before today and 23:59:59.999 local time today, both ends included; that is, its local
   * date is today or one of the three days before.
   */
  function IsLast3Days(i: Instant, clk: Clock): (b: bool)
    ensures b <==> i.At? && Today(clk) - 3 <= LocalDay(i.ms, clk.offset) <= Today(clk)
  {
    if i.At? then
      Last3DaysWindowByDay(i.ms, clk);
      StartOfDay(Today(clk) - 3, clk.offset) <= i.ms <= EndOfDay(Today(clk), clk.offset)
    else false
  }

  /** Whatever is today is also within the last three days. */
  lemma TodayImpliesLast3Days(i: Instant, clk: Clock)
    ensures IsToday(i, clk) ==> IsLast3Days(i, clk)
  {
  }

  /** An invalid instant belongs to neither window. */
  lemma InvalidInNoWindow(clk: Clock)
    ensures !IsToday(Invalid, clk) && !IsLast3Days(Invalid, clk)
  {
  }

  /** The current instant belongs to both windows. */
  lemma NowInBothWindows(clk: Clock)
    ensures IsToday(At(clk.now), clk) && IsLast3Days(At(clk.now), clk)
  {
    TodayImpliesLast3Days(At(clk.now), clk);
  }

  /**
   * Both ends of the three-day window are inclusive to the millisecond: local midnight three
   * days ago and 23:59:59.999 today are in, one millisecond outside either end is out.
   */
  lemma Last3DaysBoundaries(clk: Clock)
    ensures IsLast3Days(At(StartOfDay(Today(clk) - 3, clk.offset)), clk)
    ensures !IsLast3Days(At(StartOfDay(Today(clk) - 3, clk.offset) - 1), clk)
    ensures IsLast3Days(At(EndOfDay(Today(clk), clk.offset)), clk)
    ensures !IsLast3Days(At(EndOfDay(Today(clk), clk.offset) + 1), clk)
  {
  }

  /** Local midnight today is today; the millisecond before it is not; likewise at the end of today. */
  lemma TodayBoundaries(clk: Clock)
    ensures IsToday(At(StartOfDay(Today(clk), clk.offset)), clk)
    ensures !IsToday(At(StartOfDay(Today(clk), clk.offset) - 1), clk)
    ensures IsToday(At(EndOfDay(Today(clk), clk.offset)), clk)
    ensures !IsToday(At(EndOfDay(Today(clk), clk.offset) + 1), clk)
  {
  }

  /** Any instant on the fourth local day before today, or earlier, is outside the three-day window. */
  lemma FourDaysAgoExcluded(t: int, clk: Clock)
    requires LocalDay(t, clk.offset) <= Today(clk) - 4
    ensures !IsLast3Days(At(t), clk)
  {
  }
}

=== FILE: card.dfy ===
/**
 * The collectible item record and the local state of the card that displays it: the heart
 * (`isLiked`), the viewed highlight (`hasViewed`), the image fallback and the view button label.
 */
module Card {
  import opened Options
  import opened Text

  /**
   * `CollectibleItem`. The optional fields of the record are `Option`s: `saved`, `viewed`,
   * and the two creation-date strings `createdAt` and `date`.
   */
  datatype Item = Item(
    id: string,
    name: string,
    price: string,
    image: string,
    url: string,
    saved: Option<bool>,
    viewed: Option<bool>,
    createdAt: Option<string>,
    date: Option<string>)

  /** JavaScript truthiness of the optional `saved` flag: only `true` counts. */
  predicate IsSaved(item: Item) {
    item.saved == Some(true)
  }

  /** JavaScript truthiness of the optional `viewed` flag (`!!item.viewed`). */
  predicate IsViewed(item: Item) {
    item.viewed == Some(true)
  }

  /** The card's local state: the heart and the viewed highlight. */
  datatype CardState = CardState(liked: bool, viewed: bool)

  /** A card as first rendered for `item`: both flags start from the item's own flags. */
  function Mount(item: Item): (c: CardState)
    ensures c.liked <==> item.saved == Some(true)
    ensures c.viewed <==> item.viewed == Some(true)
  {
    CardState(IsSaved(item), IsViewed(item))
  }

  /** The outcome of clicking the heart: the new card state and the id passed to `onToggleSave`. */
  datatype LikeClick = LikeClick(card: CardState, toggledId: string)

  /** `handleToggleLike`: flips the heart at once and reports exactly the item's id upward. */
  function ToggleLike(c: CardState, item: Item): (r: LikeClick)
    ensures r.card.liked == !c.liked
    ensures r.card.viewed == c.viewed
    ensures r.toggledId == item.id
  {
    LikeClick(c.(liked := !c.liked), item.id)
  }

  /** Clicking the heart twice restores the card and reports the same id both times. */
  lemma ToggleLikeTwice(c: CardState, item: Item)
    ensures ToggleLike(ToggleLike(c, item).card, item).card == c
    ensures ToggleLike(ToggleLike(c, item).card, item).toggledId == ToggleLike(c, item).toggledId
  {
  }

  /**
   * The outcome of clicking View: the new card state, the id whose `viewed` flag is sent to the
   * server without waiting for an answer, and the URL opened in a new window.
   */
  datatype ViewClick = ViewClick(card: CardState, markViewedId: string, openedUrl: string)

  /** The View button's handler: the card becomes viewed, whatever it was; the heart is untouched. */
  function ClickView(c: CardState, item: Item): (r: ViewClick)
    ensures r.card.viewed
    ensures r.card.liked == c.liked
    ensures r.markViewedId == item.id && r.openedUrl == item.url
  {
    ViewClick(c.(viewed := true), item.id, item.url)
  }

  /** Clicking View never clears the viewed highlight, and clicking it again changes nothing. */
  lemma ClickViewMonotone(c: CardState, item: Item)
    ensures c.viewed ==> ClickView(c, item).card.viewed
    ensures ClickView(ClickView(c, item).card, item).card == ClickView(c, item).card
  {
  }

  /**
   * A new `item` prop for a mounted card. The effect that resynchronises the viewed flag runs
   * only when `item.viewed` or `item.id` changed; the heart is never resynchronised.
   */
  function PropsChanged(c: CardState, previous: Item, current: Item): (r: CardState)
    ensures r.liked == c.liked
    ensures previous.viewed != current.viewed || previous.id != current.id ==>
      (r.viewed <==> current.viewed == Some(true))
    ensures previous.viewed == current.viewed && previous.id == current.id ==> r == c
  {
    if previous.viewed != current.viewed || previous.id != current.id then
      c.(viewed := IsViewed(current))
    else c
  }

  /** The image shown in place of a missing or broken one. */
  const Placeholder: string := "/placeholder.svg"

  /** The image source a card starts with: the item's image, or the placeholder when that is empty. */
  function InitialImage(item: Item): (src: string)
    ensures item.image != "" ==> src == item.image
    ensures item.image == "" ==> src == Placeholder
  {
    if item.image != "" then item.image else Placeholder
  }

  /**
   * The image's error handler: switches to the placeholder unless the source already points at
   * it. `src` is the URL the element reports, already resolved against the page, not the
   * attribute `InitialImage` gives; the two differ for a path with dot segments.
   */
  function OnImageError(src: string): (r: string)
    ensures Contains(r, Placeholder)
    ensures Contains(src, Placeholder) ==> r == src
    ensures !Contains(src, Placeholder) ==> r == Placeholder
  {
    PlaceholderContainsItself();
    if IndexOf(src, Placeholder) == -1 then Placeholder else src
  }

  lemma PlaceholderContainsItself()
    ensures Contains(Placeholder, Placeholder)
  {
    assert OccursAt(Placeholder, Placeholder, 0);
  }

  /** A second load error leaves the source alone: the fallback cannot loop. */
  lemma OnImageErrorIdempotent(src: string)
    ensures OnImageError(OnImageError(src)) == OnImageError(src)
  {
  }

  /** The text of the view button. */
  function ViewLabel(c: CardState): string {
    if c.viewed then "View Again" else "View"
  }

  /** The label reads "View Again" exactly when the card is viewed, and does so after any View click. */
  lemma ViewLabelAfterClick(c: CardState, item: Item)
    ensures ViewLabel(c) == "View Again" <==> c.viewed
    ensures ViewLabel(c) == "View" <==> !c.viewed
    ensures ViewLabel(ClickView(c, item).card) == "View Again"
  {
  }
}

=== FILE: dashboard.dfy ===
/**
 * The collectibles dashboard as a state record driven by discrete events: the settled search
 * query, a completed listing fetch, a completed stats fetch, a completed save toggle, a tab
 * change. Each event yields the next state and the effects it starts (requests, toasts, the
 * deferred scroll restore). Every response is an input of the event that delivers it.
 */
module Dashboard {
  import opened Options
  import opened Text
  import opened Subsequences
  import Calendar
  import opened Card

  /** The three views of the dashboard. */
  datatype Tab = Today | Last3Days | Saved

  /** The per-view totals the server reports. */
  datatype Counts = Counts(today: int, last3days: int, saved: int)

  datatype State = State(
    activeTab: Tab,
    items: seq<Item>,
    searchQuery: string,        // the text as typed
    debouncedQuery: string,     // the settled query that requests and effects use
    counts: Counts,
    scroll: map<Tab, int>)      // last vertical offset recorded per view

  /** A listing request: the endpoint path and the optional `q` search parameter. */
  datatype ListRequest = ListRequest(path: string, q: Option<string>)

  datatype Notice =
    | NoItemsFound
    | ConnectionError(description: string)
    | SaveFailed
    | Refreshing

  datatype Effect =
    | FetchStats
    | FetchItems(request: ListRequest)
    | PutSaved(id: string, saved: bool, body: Item)
    | ShowToast(notice: Notice)
    | ScrollTo(offset: int)

  /** The state after an event and the effects the event started, in the order it started them. */
  datatype Step = Step(state: State, effects: seq<Effect>)

  // ---------------------------------------------------------------------------------------
  // Endpoint and query selection

  function EndpointPath(tab: Tab): string {
    match tab
    case Today => "/items/today"
    case Last3Days => "/items/last3days"
    case Saved => "/items/saved"
  }

  /** The request `fetchItems` issues: the active view's endpoint, with `q` only when the settled query is non-empty. */
  function ListRequestFor(tab: Tab, debouncedQuery: string): (r: ListRequest)
    ensures r.path == EndpointPath(tab)
    ensures r.q.Some? <==> debouncedQuery != ""
    ensures r.q.Some? ==> r.q.value == debouncedQuery
  {
    ListRequest(EndpointPath(tab), if debouncedQuery != "" then Some(debouncedQuery) else None)
  }

  /** Reads the view back from an endpoint path. */
  function TabOfPath(path: string): Option<Tab> {
    if path == "/items/today" then Some(Today)
    else if path == "/items/last3days" then Some(Last3Days)
    else if path == "/items/saved" then Some(Saved)
    else None
  }

  /** Each view has its own endpoint: the path alone determines the view it was requested for. */
  lemma EndpointIdentifiesTab(tab: Tab)
    ensures TabOfPath(EndpointPath(tab)) == Some(tab)
  {
  }

  /** Two views never share an endpoint. */
  lemma EndpointsDistinct(a: Tab, b: Tab)
    ensures EndpointPath(a) == EndpointPath(b) <==> a == b
  {
    EndpointIdentifiesTab(a);
    EndpointIdentifiesTab(b);
  }

  // ---------------------------------------------------------------------------------------
  // Initial render and the two effects keyed on (activeTab, debouncedQuery)

  const InitialScroll: map<Tab, int> := map[Today := 0, Last3Days := 0, Saved := 0]

  /** The requests started whenever the active view or the settled query takes a new value. */
  function ReloadEffects(s: State): seq<Effect> {
    [FetchStats, FetchItems(ListRequestFor(s.activeTab, s.debouncedQuery))]
  }

  /** The first render: the today view, no items, empty queries, zero counts and offsets. */
  function Init(): (r: Step)
    ensures r.state.activeTab == Today && r.state.items == []
    ensures r.state.searchQuery == "" && r.state.debouncedQuery == ""
    ensures r.state.counts == Counts(0, 0, 0)
    ensures r.state.scroll == InitialScroll && forall t: Tab :: t in r.state.scroll && r.state.scroll[t] == 0
    ensures r.effects == [FetchStats, FetchItems(ListRequest("/items/today", None))]
  {
    assert forall t: Tab :: t in InitialScroll && InitialScroll[t] == 0 by {
      forall t: Tab
        ensures t in InitialScroll && InitialScroll[t] == 0
      {
        assert t.Today? || t.Last3Days? || t.Saved?;
      }
    }
    var s := State(Today, [], "", "", Counts(0, 0, 0), InitialScroll);
    Step(s, ReloadEffects(s))
  }

  // ---------------------------------------------------------------------------------------
  // Search query

  /** A keystroke in the search box: only the raw query changes, nothing is requested yet. */
  function SetQuery(s: State, raw: string): (r: State)
    ensures r.searchQuery == raw
    ensures r.(searchQuery := s.searchQuery) == s
  {
    s.(searchQuery := raw)
  }

  /**
   * The debounce timer fires: the settled query becomes the trimmed raw query. A settled value
   * that differs from the previous one starts a fresh stats and listing request.
   */
  function Settle(s: State): (r: Step)
    ensures r.state == s.(debouncedQuery := Trim(s.searchQuery))
    ensures r.effects != [] <==> Trim(s.searchQuery) != s.debouncedQuery
    ensures Trim(s.searchQuery) != s.debouncedQuery ==>
      r.effects == [FetchStats, FetchItems(ListRequestFor(s.activeTab, Trim(s.searchQuery)))]
  {
    var s' := s.(debouncedQuery := Trim(s.searchQuery));
    if s'.debouncedQuery != s.debouncedQuery then Step(s', ReloadEffects(s')) else Step(s', [])
  }

  /** Types each string of `keys` into the search box in turn. */
  function TypeAll(s: State, keys: seq<string>): State
    decreases |keys|
  {
    if |keys| == 0 then s else TypeAll(SetQuery(s, keys[0]), keys[1..])
  }

  /** Whatever was typed along the way, the value that settles is the last one, trimmed. */
  lemma {:induction false} SettlesOnLastKeystroke(s: State, keys: seq<string>)
    requires |keys| > 0
    ensures Settle(TypeAll(s, keys)).state.debouncedQuery == Trim(keys[|keys| - 1])
    ensures Settle(TypeAll(s, keys)).state.items == s.items
    decreases |keys|
  {
    if |keys| > 1 {
      SettlesOnLastKeystroke(SetQuery(s, keys[0]), keys[1..]);
    }
  }

  /** The `q` parameter sent after a query settles never starts or ends with whitespace. */
  lemma SettledQueryIsTrimmed(s: State)
    ensures var q := ListRequestFor(s.activeTab, Settle(s).state.debouncedQuery).q;
      q.Some? ==> !IsTrimmable(q.value[0]) && !IsTrimmable(q.value[|q.value| - 1])
    ensures ListRequestFor(s.activeTab, Settle(s).state.debouncedQuery).q == None <==>
      Trim(s.searchQuery) == ""
    ensures Trim(s.searchQuery) != s.debouncedQuery ==> Settle(s).effects[1].FetchItems?
    ensures Trim(s.searchQuery) != s.debouncedQuery ==>
      var req := Settle(s).effects[1].request;
      && req.path == EndpointPath(s.activeTab)
      && (req.q == None <==> Trim(s.searchQuery) == "")
      && (req.q.Some? ==> !IsTrimmable(req.q.value[0]) && !IsTrimmable(req.q.value[|req.q.value| - 1]))
  {
  }

  // ---------------------------------------------------------------------------------------
  // Creation date and per-view filtering

  /** Where an item's creation date comes from. */
  datatype DateSource = FromField(text: string) | FromNow

  /** JavaScript truthiness of an optional string: present and non-empty. */
  predicate Truthy(o: Option<string>) {
    o.Some? && o.value != ""
  }

  /** `getItemCreationDate`: `createdAt` when truthy, else `date` when truthy, else the current instant. */
  function CreationSource(item: Item): (r: DateSource)
    ensures Truthy(item.createdAt) ==> r == FromField(item.createdAt.value)
    ensures !Truthy(item.createdAt) && Truthy(item.date) ==> r == FromField(item.date.value)
    ensures r == FromNow <==> !Truthy(item.createdAt) && !Truthy(item.date)
  {
    if Truthy(item.createdAt) then FromField(item.createdAt.value)
    else if Truthy(item.date) then FromField(item.date.value)
    else FromNow
  }

  /** The instant the classifiers see: the parsed date string, or the current instant. */
  function CreationInstant(item: Item, clk: Calendar.Clock, parse: string -> Calendar.Instant): (r: Calendar.Instant)
    ensures Truthy(item.createdAt) ==> r == parse(item.createdAt.value)
    ensures !Truthy(item.createdAt) && Truthy(item.date) ==> r == parse(item.date.value)
    ensures !Truthy(item.createdAt) && !Truthy(item.date) ==> r == Calendar.At(clk.now)
  {
    match CreationSource(item)
    case FromField(text) => parse(text)
    case FromNow => Calendar.At(clk.now)
  }

  /** Whether `item` is displayed under `tab`. */
  predicate Visible(tab: Tab, item: Item, clk: Calendar.Clock, parse: string -> Calendar.Instant) {
    match tab
    case Today => Calendar.IsToday(CreationInstant(item, clk, parse), clk)
    case Last3Days => Calendar.IsLast3Days(CreationInstant(item, clk, parse), clk)
    case Saved => IsSaved(item)
  }

  function Shows(tab: Tab, clk: Calendar.Clock, parse: string -> Calendar.Instant): Item -> bool {
    (item: Item) => Visible(tab, item, clk, parse)
  }

  /** `filteredItems`: the items the active view displays, in the order the server sent them. */
  function FilteredItems(s: State, clk: Calendar.Clock, parse: string -> Calendar.Instant): (r: seq<Item>)
    ensures |r| <= |s.items|
    ensures IsSubsequence(r, s.items)
    ensures forall x :: x in r <==> x in s.items && Visible(s.activeTab, x, clk, parse)
  {
    var p := Shows(s.activeTab, clk, parse);
    FilterIsSubsequence(s.items, p);
    forall x
      ensures x in Filter(s.items, p) <==> x in s.items && p(x)
    {
      FilterMembership(s.items, p, x);
    }
    Filter(s.items, p)
  }

  /**
   * The displayed sequence is an order-preserving subsequence of `items` that sits at exactly
   * the positions of the items the active view accepts.
   */
  lemma FilteredSelectsExactly(s: State, clk: Calendar.Clock, parse: string -> Calendar.Instant)
    ensures IsSubsequence(FilteredItems(s, clk, parse), s.items)
    ensures exists idx :: (Embeds(idx, FilteredItems(s, clk, parse), s.items)
      && forall i :: 0 <= i < |s.items| ==> (i in idx <==> Visible(s.activeTab, s.items[i], clk, parse)))
  {
    var p := Shows(s.activeTab, clk, parse);
    FilterEmbedding(s.items, p);
    PositionsExact(s.items, p);
    var idx := Positions(s.items, p);
    assert Embeds(idx, FilteredItems(s, clk, parse), s.items);
  }

  /** The saved view shows an item exactly when the item is held and its `saved` flag is true. */
  lemma SavedViewMembership(s: State, clk: Calendar.Clock, parse: string -> Calendar.Instant, x: Item)
    requires s.activeTab == Saved
    ensures x in FilteredItems(s, clk, parse) <==> x in s.items && x.saved == Some(true)
  {
    FilterMembership(s.items, Shows(Saved, clk, parse), x);
  }

  /** The date views show an item exactly when its resolved creation instant falls in the view's window. */
  lemma DateViewMembership(s: State, clk: Calendar.Clock, parse: string -> Calendar.Instant, x: Item)
    ensures s.activeTab == Today ==>
      (x in FilteredItems(s, clk, parse) <==> x in s.items && Calendar.IsToday(CreationInstant(x, clk, parse), clk))
    ensures s.activeTab == Last3Days ==>
      (x in FilteredItems(s, clk, parse) <==> x in s.items && Calendar.IsLast3Days(CreationInstant(x, clk, parse), clk))
  {
    FilterMembership(s.items, Shows(s.activeTab, clk, parse), x);
  }

  /** Everything the today view shows, the last-three-days view shows too. */
  lemma TodayViewWithinLast3Days(s: State, clk: Calendar.Clock, parse: string -> Calendar.Instant, x: Item)
    requires s.activeTab == Today && x in FilteredItems(s, clk, parse)
    ensures x in FilteredItems(s.(activeTab := Last3Days), clk, parse)
  {
    DateViewMembership(s, clk, parse, x);
    DateViewMembership(s.(activeTab := Last3Days), clk, parse, x);
    Calendar.TodayImpliesLast3Days(CreationInstant(x, clk, parse), clk);
  }

  /** An item with neither creation field is dated now, so both date views show it. */
  lemma UndatedItemInDateViews(item: Item, clk: Calendar.Clock, parse: string -> Calendar.Instant)
    requires !Truthy(item.createdAt) && !Truthy(item.date)
    ensures Visible(Today, item, clk, parse) && Visible(Last3Days, item, clk, parse)
  {
    Calendar.NowInBothWindows(clk);
  }

  /**
   * One item created now and one created five days ago, on the today view: only the first
   * is displayed.
   */
  lemma TodayViewScenario(s: State, clk: Calendar.Clock, parse: string -> Calendar.Instant, recent: Item, stale: Item)
    requires s.activeTab == Today && s.items == [recent, stale]
    requires Truthy(recent.createdAt) && parse(recent.createdAt.value) == Calendar.At(clk.now)
    requires Truthy(stale.createdAt) && parse(stale.createdAt.value) == Calendar.At(clk.now - 5 * Calendar.MsPerDay)
    ensures FilteredItems(s, clk, parse) == [recent]
  {
    Calendar.NowInBothWindows(clk);
    var t, today, off := clk.now - 5 * Calendar.MsPerDay, Calendar.Today(clk), clk.offset;
    Calendar.DayBounds(clk.now, today, off);
    Calendar.DayBounds(t, today - 5, off);
    assert Calendar.LocalDay(t, off) == today - 5;
    assert Visible(Today, recent, clk, parse);
    assert !Visible(Today, stale, clk, parse);
    var p := Shows(Today, clk, parse);
    assert p(recent) && !p(stale);
    assert Filter([stale], p) == [] by {
      assert [stale][1..] == [];
    }
    assert Filter([recent, stale], p) == [recent] + Filter([stale], p) by {
      assert [recent, stale][1..] == [stale];
    }
  }

  // ---------------------------------------------------------------------------------------
  // Listing fetch completion

  /** The JSON payload of a listing response. */
  datatype Body = JsonArray(items: seq<Item>) | JsonNonArray | JsonSyntaxError(message: string)

  /**
   * How a listing request ended: the request was rejected (with the error's message, or `None`
   * when what was thrown is not an `Error`), or a response arrived.
   */
  datatype ListResponse = Rejected(message: Option<string>) | Received(ok: bool, status: nat, body: Body)

  /** Whether the response replaces the item set: a successful status with an array payload. */
  predicate Delivers(resp: ListResponse) {
    resp.Received? && resp.ok && resp.body.JsonArray?
  }

  /** The description of the connection-error toast for a response that does not deliver items. */
  function FailureDescription(resp: ListResponse): string
    requires !Delivers(resp)
  {
    match resp
    case Rejected(m) => m.GetOr("Unable to fetch collectible items from the server.")
    case Received(ok, status, body) =>
      if !ok then "Server responded with status: " + Decimal(status)
      else match body
        case JsonSyntaxError(message) => message
        case _ => "Invalid data format received from server"
  }

  /** The offset the scroll restore goes to: the active view's recorded offset, and 0 for a view never recorded. */
  function RestoreOffset(s: State): (y: int)
    ensures s.activeTab in s.scroll ==> y == s.scroll[s.activeTab]
    ensures s.activeTab !in s.scroll ==> y == 0
  {
    if s.activeTab in s.scroll then s.scroll[s.activeTab] else 0
  }

  /**
   * `fetchItems` completes. Only a successful array payload replaces `items`, wholesale, and
   * schedules the scroll restore; an empty array also raises the no-items toast. Any other
   * outcome leaves the whole state as it was and raises a connection-error toast.
   */
  function FetchCompleted(s: State, resp: ListResponse): (r: Step)
    ensures Delivers(resp) ==> r.state == s.(items := resp.body.items)
    ensures Delivers(resp) ==> |r.effects| > 0 && r.effects[0] == ScrollTo(RestoreOffset(s))
    ensures Delivers(resp) ==> (ShowToast(NoItemsFound) in r.effects <==> resp.body.items == [])
    ensures !Delivers(resp) ==> r.state == s
    ensures !Delivers(resp) ==> |r.effects| == 1 && r.effects[0].ShowToast? && r.effects[0].notice.ConnectionError?
    ensures Delivers(resp) ==>
      r.effects == [ScrollTo(RestoreOffset(s))] + (if resp.body.items == [] then [ShowToast(NoItemsFound)] else [])
    ensures resp.Rejected? && resp.message.Some? ==> r.effects == [ShowToast(ConnectionError(resp.message.value))]
    ensures resp.Rejected? && resp.message.None? ==>
      r.effects == [ShowToast(ConnectionError("Unable to fetch collectible items from the server."))]
    ensures resp.Received? && resp.ok && resp.body.JsonNonArray? ==>
      r.effects == [ShowToast(ConnectionError("Invalid data format received from server"))]
    ensures resp.Received? && resp.ok && resp.body.JsonSyntaxError? ==>
      r.effects == [ShowToast(ConnectionError(resp.body.message))]
  {
    if Delivers(resp) then
      var data := resp.body.items;
      Step(s.(items := data), [ScrollTo(RestoreOffset(s))] + (if |data| == 0 then [ShowToast(NoItemsFound)] else []))
    else
      Step(s, [ShowToast(ConnectionError(FailureDescription(resp)))])
  }

  /** A non-successful status is reported with its number, whatever the body holds. */
  lemma BadStatusNotice(s: State, status: nat, body: Body)
    ensures FetchCompleted(s, Received(false, status, body)).effects ==
      [ShowToast(ConnectionError("Server responded with status: " + Decimal(status)))]
    ensures FetchCompleted(s, Received(false, status, body)).state.items == s.items
  {
  }

  // ---------------------------------------------------------------------------------------
  // Stats completion

  /**
   * The payload of a stats response as `res.json()` leaves it. `StatsMalformed`: the body is not
   * JSON, or is JSON `null`, so reading a field throws and the handler gives up. Any other JSON
   * value is `StatsFields`, a count being `None` when the field is missing or falsy; an array, a
   * number or a string has none of the fields and is `StatsFields(None, None, None)`.
   */
  datatype StatsBody = StatsMalformed | StatsFields(today: Option<int>, last3days: Option<int>, saved: Option<int>)

  datatype StatsResponse = StatsRejected | StatsReceived(ok: bool, body: StatsBody)

  /**
   * `refreshStats` completes. A successful response whose body has fields sets all three counts, a
   * missing count becoming 0; anything else leaves the counts, and the rest of the state, alone.
   */
  function StatsCompleted(s: State, resp: StatsResponse): (r: State)
    ensures !(resp.StatsReceived? && resp.ok && resp.body.StatsFields?) ==> r == s
    ensures resp.StatsReceived? && resp.ok && resp.body.StatsFields? ==>
      && r == s.(counts := r.counts)
      && (resp.body.today.None? ==> r.counts.today == 0)
      && (resp.body.today.Some? ==> r.counts.today == resp.body.today.value)
      && (resp.body.last3days.None? ==> r.counts.last3days == 0)
      && (resp.body.last3days.Some? ==> r.counts.last3days == resp.body.last3days.value)
      && (resp.body.saved.None? ==> r.counts.saved == 0)
      && (resp.body.saved.Some? ==> r.counts.saved == resp.body.saved.value)
  {
    match resp
    case StatsReceived(true, StatsFields(t, l, v)) => s.(counts := Counts(t.GetOr(0), l.GetOr(0), v.GetOr(0)))
    case _ => s
  }

  /**
   * A successful stats response decides the counts on its own: whatever the counts were before,
   * they end up the same, so delivering the same response twice is delivering it once.
   */
  lemma StatsResponseDecidesCounts(s: State, s2: State, resp: StatsResponse)
    requires resp.StatsReceived? && resp.ok && resp.body.StatsFields?
    ensures StatsCompleted(s, resp).counts == StatsCompleted(s2, resp).counts
    ensures StatsCompleted(StatsCompleted(s, resp), resp) == StatsCompleted(s, resp)
  {
  }

  /** A successful response whose JSON is not an object (an array, a number, a string) zeroes all three counts. */
  lemma StatsNonObjectZeroes(s: State)
    ensures StatsCompleted(s, StatsReceived(true, StatsFields(None, None, None))).counts == Counts(0, 0, 0)
  {
  }

  /** The refresh button: a toast and a stats request; nothing in the state changes. */
  function Refresh(s: State): (r: Step)
    ensures r.state == s
    ensures FetchStats in r.effects
    ensures forall e :: e in r.effects ==> !e.FetchItems?
  {
    Step(s, [ShowToast(Refreshing), FetchStats])
  }

  // ---------------------------------------------------------------------------------------
  // Save toggle

  /** No two held items share an id. */
  predicate UniqueIds(items: seq<Item>) {
    forall i, j :: 0 <= i < j < |items| ==> items[i].id != items[j].id
  }

  /** `items.find`: the first item with the given id. */
  function FirstWithId(items: seq<Item>, id: string): (r: Option<Item>)
    ensures r.None? <==> forall i :: 0 <= i < |items| ==> items[i].id != id
    ensures r.Some? ==> r.value in items && r.value.id == id
    ensures r.Some? ==> exists i :: (0 <= i < |items| && items[i] == r.value
      && forall j :: 0 <= j < i ==> items[j].id != id)
  {
    if |items| == 0 then None
    else if items[0].id == id then Some(items[0])
    else
      var r := FirstWithId(items[1..], id);
      assert forall i :: 1 <= i < |items| ==> items[i] == items[1..][i - 1];
      if r.Some? then
        var i :| 0 <= i < |items[1..]| && items[1..][i] == r.value
          && forall j :: 0 <= j < i ==> items[1..][j].id != id;
        assert items[i + 1] == r.value;
        r
      else r
  }

  /** `items.map`: every item with the given id becomes `updated`; the others stay as they are. */
  function ReplaceById(items: seq<Item>, id: string, updated: Item): (r: seq<Item>)
    ensures |r| == |items|
    ensures forall i :: 0 <= i < |items| ==> r[i] == (if items[i].id == id then updated else items[i])
  {
    seq(|items|, i requires 0 <= i < |items| => if items[i].id == id then updated else items[i])
  }

  function HasOtherId(id: string): Item -> bool {
    (item: Item) => item.id != id
  }

  /** The item as sent to the server and as patched locally: `saved` negated, all else kept. */
  function Toggled(item: Item): (r: Item)
    ensures r.saved == Some(!IsSaved(item))
    ensures r.(saved := item.saved) == item
  {
    item.(saved := Some(!IsSaved(item)))
  }

  /**
   * `handleToggleSave(id)` together with the outcome of its update request. Without an item of
   * that id nothing happens. Otherwise the first such item, `saved` negated, is sent; only a
   * successful response patches `items` (every item with that id becomes the sent item, and on
   * the saved view an item whose new flag is false is removed) and asks for fresh stats. A failed
   * request leaves the state as it was and raises a toast.
   */
  function ToggleSave(s: State, id: string, ok: bool): (r: Step)
    ensures FirstWithId(s.items, id).None? ==> r == Step(s, [])
    ensures FirstWithId(s.items, id).Some? ==>
      var sent := Toggled(FirstWithId(s.items, id).value);
      && |r.effects| > 0 && r.effects[0] == PutSaved(id, sent.saved.value, sent)
      && (!ok ==> r.state == s && r.effects == [PutSaved(id, sent.saved.value, sent), ShowToast(SaveFailed)])
      && (ok ==> r.state == s.(items := r.state.items) && FetchStats in r.effects)
      && (ok ==> r.effects == [PutSaved(id, sent.saved.value, sent), FetchStats])
      && (ok && !(s.activeTab == Saved && !sent.saved.value) ==>
            && |r.state.items| == |s.items|
            && forall j :: 0 <= j < |s.items| ==> r.state.items[j] == (if s.items[j].id == id then sent else s.items[j]))
  {
    match FirstWithId(s.items, id)
    case None => Step(s, [])
    case Some(item) =>
      var sent := Toggled(item);
      var put := PutSaved(id, sent.saved.value, sent);
      if !ok then Step(s, [put, ShowToast(SaveFailed)])
      else
        var patched := ReplaceById(s.items, id, sent);
        var items' := if s.activeTab == Saved && !sent.saved.value then Filter(patched, HasOtherId(id)) else patched;
        Step(s.(items := items'), [put, FetchStats])
  }

  /** A failed toggle changes no item, whatever the view. */
  lemma ToggleFailureKeepsItems(s: State, id: string)
    ensures ToggleSave(s, id, false).state.items == s.items
  {
  }

  /**
   * A successful toggle that does not remove: the sequence keeps its length and order, items
   * with other ids are untouched, and with unique ids the toggled item differs from before in
   * its `saved` flag alone, which is negated.
   */
  lemma ToggleSuccessOnlyTargetChanges(s: State, id: string, i: int)
    requires UniqueIds(s.items)
    requires 0 <= i < |s.items| && s.items[i].id == id
    requires !(s.activeTab == Saved && IsSaved(s.items[i]))
    ensures var items' := ToggleSave(s, id, true).state.items;
      && |items'| == |s.items|
      && (forall j :: 0 <= j < |s.items| && j != i ==> items'[j] == s.items[j])
      && items'[i] == s.items[i].(saved := Some(!IsSaved(s.items[i])))
  {
    var first := FirstWithId(s.items, id).value;
    assert first == s.items[i];
  }

  /**
   * A successful unsave on the saved view removes the item at once: no item with that id is
   * left, and what remains is the rest of the items in their old order.
   */
  lemma ToggleSuccessRemovesFromSavedView(s: State, id: string, i: int)
    requires UniqueIds(s.items)
    requires s.activeTab == Saved
    requires 0 <= i < |s.items| && s.items[i].id == id && IsSaved(s.items[i])
    ensures var items' := ToggleSave(s, id, true).state.items;
      && (forall x :: x in items' ==> x.id != id)
      && IsSubsequence(items', s.items)
      && (forall j :: 0 <= j < |s.items| && j != i ==> s.items[j] in items')
  {
    var first := FirstWithId(s.items, id).value;
    assert first == s.items[i];
    var sent := Toggled(first);
    var patched := ReplaceById(s.items, id, sent);
    var items' := Filter(patched, HasOtherId(id));
    assert ToggleSave(s, id, true).state.items == items';
    FilterEmbedding(patched, HasOtherId(id));
    var idx := Positions(patched, HasOtherId(id));
    forall k | 0 <= k < |idx|
      ensures items'[k] == s.items[idx[k]]
    {
      assert patched[idx[k]].id != id;
    }
    assert Embeds(idx, items', s.items);
    forall j | 0 <= j < |s.items| && j != i
      ensures s.items[j] in items'
    {
      assert patched[j] == s.items[j];
      FilterKeeps(patched, HasOtherId(id), j);
    }
  }

  /** Toggling keeps ids unique. */
  lemma ToggleKeepsIdsUnique(s: State, id: string, ok: bool)
    requires UniqueIds(s.items)
    ensures UniqueIds(ToggleSave(s, id, ok).state.items)
  {
    if ok && FirstWithId(s.items, id).Some? {
      var sent := Toggled(FirstWithId(s.items, id).value);
      var patched := ReplaceById(s.items, id, sent);
      assert UniqueIds(patched);
      if s.activeTab == Saved && !sent.saved.value {
        var items' := Filter(patched, HasOtherId(id));
        FilterEmbedding(patched, HasOtherId(id));
        var idx := Positions(patched, HasOtherId(id));
        assert Embeds(idx, items', patched);
      }
    }
  }

  /**
   * Two successful toggles of the same item outside the saved view restore its `saved`
   * truthiness and leave every other item as it was.
   */
  lemma ToggleTwiceRestoresFlag(s: State, id: string, i: int)
    requires UniqueIds(s.items)
    requires s.activeTab != Saved
    requires 0 <= i < |s.items| && s.items[i].id == id
    ensures var items2 := ToggleSave(ToggleSave(s, id, true).state, id, true).state.items;
      && |items2| == |s.items|
      && IsSaved(items2[i]) == IsSaved(s.items[i])
      && forall j :: 0 <= j < |s.items| && j != i ==> items2[j] == s.items[j]
  {
    var s1 := ToggleSave(s, id, true).state;
    ToggleSuccessOnlyTargetChanges(s, id, i);
    ToggleKeepsIdsUnique(s, id, true);
    ToggleSuccessOnlyTargetChanges(s1, id, i);
  }

  /** An unsave on the saved view, followed by the stats response. */
  lemma SavedViewScenario(s: State, id: string, i: int)
    requires UniqueIds(s.items) && s.activeTab == Saved
    requires 0 <= i < |s.items| && s.items[i].id == id && IsSaved(s.items[i])
    ensures ToggleSave(s, id, true).effects == [PutSaved(id, false, s.items[i].(saved := Some(false))), FetchStats]
    ensures forall x :: x in ToggleSave(s, id, true).state.items ==> x.id != id
  {
    ToggleSuccessRemovesFromSavedView(s, id, i);
    assert FirstWithId(s.items, id).value == s.items[i];
  }

  // ---------------------------------------------------------------------------------------
  // Tab change and scroll continuity

  /**
   * `handleTabChange(tab)` with the window's current offset `scrollY`: the offset is recorded
   * under the view being left, then `tab` becomes active. A different view starts a stats and
   * listing request; selecting the active view again starts nothing.
   */
  function ChangeTab(s: State, tab: Tab, scrollY: int): (r: Step)
    ensures r.state.activeTab == tab
    ensures r.state.scroll == s.scroll[s.activeTab := scrollY]
    ensures r.state.(activeTab := s.activeTab, scroll := s.scroll) == s
    ensures tab != s.activeTab ==> r.effects == [FetchStats, FetchItems(ListRequestFor(tab, s.debouncedQuery))]
    ensures tab == s.activeTab ==> r.effects == []
  {
    var s' := s.(scroll := s.scroll[s.activeTab := scrollY], activeTab := tab);
    if tab != s.activeTab then Step(s', ReloadEffects(s')) else Step(s', [])
  }

  /** A tab change touches only the outgoing view's entry of the scroll map. */
  lemma ChangeTabRecordsOutgoingOnly(s: State, tab: Tab, scrollY: int, other: Tab)
    requires other != s.activeTab
    ensures var m := ChangeTab(s, tab, scrollY).state.scroll;
      s.activeTab in m && m[s.activeTab] == scrollY
      && (other in m <==> other in s.scroll)
      && (other in s.scroll ==> m[other] == s.scroll[other])
  {
  }

  /**
   * Leaving a view at offset `y`, visiting another, and coming back: once the listing for the
   * returning view arrives, the scroll restore takes it back to `y`.
   */
  lemma ScrollContinuity(s: State, other: Tab, y: int, y2: int, data: seq<Item>)
    requires other != s.activeTab
    ensures var back := ChangeTab(ChangeTab(s, other, y).state, s.activeTab, y2).state;
      && back.activeTab == s.activeTab
      && FetchCompleted(back, Received(true, 200, JsonArray(data))).effects[0] == ScrollTo(y)
  {
  }

  /** Every view keeps an entry in the scroll map from the first render on. */
  lemma ScrollMapStaysTotal(s: State, tab: Tab, scrollY: int)
    requires forall t: Tab :: t in s.scroll
    ensures forall t: Tab :: t in ChangeTab(s, tab, scrollY).state.scroll
  {
  }
}

=== FILE: options.dfy ===
/** Optional values: a JavaScript `undefined`/`null` field or return value is `None`. */
module Options {

  datatype Option<+T> = None | Some(value: T) {

    /** The value held, or `default` when there is none. */
    function GetOr(default: T): T {
      match this
      case Some(v) => v
      case None => default
    }
  }
}

=== FILE: routes.dfy ===
/**
 * The application shell: the token it holds, when it re-reads that token from storage, and
 * which page each path shows for a visitor with or without a token.
 */
module Routes {
  import opened Text
  import opened Options
  import Auth
  import Settings

  /** What a path shows: one of the four pages, or a redirect to another path. */
  datatype Page = IndexPage | LoginPage | SettingsPage | NotFoundPage | Redirect(to: string)

  predicate AllSlashes(s: string) {
    forall i :: 0 <= i < |s| ==> s[i] == '/'
  }

  /** The path the router matches against: the location's path name, or "/" when that is empty. */
  function RouterPath(path: string): (p: string)
    ensures p != ""
    ensures path != "" ==> p == path
  {
    if path == "" then "/" else path
  }

  /** A lower-case path `p` matches a static pattern: the pattern is a prefix and only slashes follow it. */
  predicate MatchesLowered(pattern: string, p: string) {
    pattern <= p && AllSlashes(p[|pattern|..])
  }

  /**
   * The router's default matching of a static route pattern written in lower case: letters match
   * regardless of case, and any number of trailing slashes is accepted.
   */
  predicate Matches(pattern: string, path: string) {
    MatchesLowered(pattern, AsciiLower(RouterPath(path)))
  }

  /** The route table: the two signed-in pages and the login page guarded by the token, everything else not found. */
  function Resolve(path: string, token: Option<string>): (page: Page)
    ensures Matches("/", path) ==> page == (if Auth.HasToken(token) then IndexPage else Redirect("/login"))
    ensures Matches("/login", path) ==> page == (if Auth.HasToken(token) then Redirect("/") else LoginPage)
    ensures Matches("/settings", path) ==> page == (if Auth.HasToken(token) then SettingsPage else Redirect("/login"))
    ensures !Matches("/", path) && !Matches("/login", path) && !Matches("/settings", path) ==> page == NotFoundPage
  {
    PatternsExclusive(path);
    var signedIn := Auth.HasToken(token);
    if Matches("/login", path) then (if signedIn then Redirect("/") else LoginPage)
    else if Matches("/settings", path) then (if signedIn then SettingsPage else Redirect("/login"))
    else if Matches("/", path) then (if signedIn then IndexPage else Redirect("/login"))
    else NotFoundPage
  }

  /** No path matches two of the route patterns, so the order of the table does not matter. */
  lemma PatternsExclusive(path: string)
    ensures !(Matches("/", path) && Matches("/login", path))
    ensures !(Matches("/", path) && Matches("/settings", path))
    ensures !(Matches("/login", path) && Matches("/settings", path))
  {
    var p := AsciiLower(RouterPath(path));
    if Matches("/", path) && |p| > 1 {
      assert p[1] == p[1..][0];
    }
  }

  /** The index and settings pages are only ever shown to a visitor holding a token. */
  lemma ProtectedPagesNeedToken(path: string, token: Option<string>)
    ensures Resolve(path, token) in {IndexPage, SettingsPage} ==> Auth.HasToken(token)
    ensures Resolve(path, token) == LoginPage ==> !Auth.HasToken(token)
  {
  }

  /** Following a redirect always lands on a page: the guards never send a visitor round in circles. */
  lemma RedirectsSettle(path: string, token: Option<string>)
    ensures Resolve(path, token).Redirect? ==> !Resolve(Resolve(path, token).to, token).Redirect?
  {
    SlashPathsMatch();
  }

  /** The exact paths of the table match their own patterns and no other. */
  lemma SlashPathsMatch()
    ensures Matches("/", "/") && !Matches("/login", "/") && !Matches("/settings", "/")
    ensures Matches("/login", "/login")
    ensures Matches("/settings", "/settings")
  {
    assert AsciiLower("/") == "/";
    assert AsciiLower("/login") == "/login";
    assert AsciiLower("/settings") == "/settings";
  }

  /** Folding the path to lower case first changes nothing: letter case never decides the route. */
  lemma CaseIgnored(path: string, token: Option<string>)
    ensures Resolve(AsciiLower(path), token) == Resolve(path, token)
  {
    if path != "" {
      AsciiLowerIdempotent(path);
    }
    assert AsciiLower(RouterPath(AsciiLower(path))) == AsciiLower(RouterPath(path));
  }

  /**
   * Against a non-empty lower-case path, a pattern that is "/" or does not end in a slash matches
   * with one more trailing slash exactly when it matches without it.
   */
  lemma SlashExtended(pattern: string, q: string)
    requires |q| > 0
    requires pattern == "/" || (|pattern| > 0 && pattern[|pattern| - 1] != '/')
    ensures MatchesLowered(pattern, q + "/") <==> MatchesLowered(pattern, q)
  {
    if |pattern| <= |q| {
      assert (q + "/")[..|pattern|] == q[..|pattern|];
      assert pattern <= q + "/" <==> pattern <= q;
      var rest := q[|pattern|..];
      assert (q + "/")[|pattern|..] == rest + "/";
      if AllSlashes(rest + "/") {
        forall i | 0 <= i < |rest|
          ensures rest[i] == '/'
        {
          assert rest[i] == (rest + "/")[i];
        }
      }
    }
  }

  /** A trailing slash never changes where a path leads; the empty path leads where "/" does. */
  lemma TrailingSlashIgnored(path: string, token: Option<string>)
    ensures Resolve(path + "/", token) == Resolve(path, token)
  {
    if path != "" {
      var q := AsciiLower(path);
      AsciiLowerAppend(path, "/");
      assert AsciiLower("/") == "/";
      assert AsciiLower(RouterPath(path + "/")) == q + "/";
      SlashExtended("/", q);
      SlashExtended("/login", q);
      SlashExtended("/settings", q);
    } else {
      assert path + "/" == "/";
    }
  }

  /** Paths outside the table show the not-found page, with or without a token. */
  lemma UnknownPathNotFound(token: Option<string>)
    ensures Resolve("/items", token) == NotFoundPage
    ensures Resolve("/login/x", token) == NotFoundPage
  {
    assert AsciiLower("/items") == "/items";
    assert "/items"[1] == 'i';
    assert AsciiLower("/login/x") == "/login/x";
    assert "/login/x"[1] == 'l';
    assert "/login/x"[7] == 'x';
  }

  // ---------------------------------------------------------------------------------------
  // The token the shell holds

  /** The window events the shell listens for, and any other event. */
  datatype WindowEvent = StorageChanged | AuthTokenChanged | OtherEvent

  /** The shell's token as first read when the application starts. */
  function Boot(st: Auth.Storage): (token: Option<string>)
    ensures token.Some? <==> st.Available? && Auth.TokenKey in st.entries
    ensures token.Some? ==> token.value == st.entries[Auth.TokenKey]
  {
    Auth.GetToken(st)
  }

  /** A shell started after a token was saved holds that token; one started after a clear holds none. */
  lemma BootAfterSaveOrClear(st: Auth.Storage, t: string)
    requires st.Available?
    ensures Boot(Auth.SaveToken(st, t).storage) == Some(t)
    ensures Boot(Auth.ClearToken(st).storage) == None
  {
  }

  /** The shell re-reads the stored token on a storage event or a token-change event, and on nothing else. */
  function OnWindowEvent(token: Option<string>, ev: WindowEvent, st: Auth.Storage): (r: Option<string>)
    ensures ev != OtherEvent ==> r == Auth.GetToken(st)
    ensures ev == OtherEvent ==> r == token
  {
    if ev == OtherEvent then token else Auth.GetToken(st)
  }

  /** The shell's event for a notification the storage helpers dispatch. */
  function AsWindowEvent(n: Auth.Notification): WindowEvent {
    match n
    case AuthTokenChanged => AuthTokenChanged
  }

  /** Delivers each notification to the shell in turn. */
  function Deliver(token: Option<string>, ns: seq<Auth.Notification>, st: Auth.Storage): Option<string>
    decreases |ns|
  {
    if |ns| == 0 then token else Deliver(OnWindowEvent(token, AsWindowEvent(ns[0]), st), ns[1..], st)
  }

  /**
   * Signing in: once a non-empty token is saved and its notification delivered, the shell holds
   * that token, the root path shows the index and the login path redirects home.
   */
  lemma SignInUnlocksIndex(token: Option<string>, st: Auth.Storage, t: string)
    requires st.Available? && t != ""
    ensures var u := Auth.SaveToken(st, t);
      && Deliver(token, u.notifications, u.storage) == Some(t)
      && Resolve("/", Deliver(token, u.notifications, u.storage)) == IndexPage
      && Resolve("/login", Deliver(token, u.notifications, u.storage)) == Redirect("/")
  {
    var u := Auth.SaveToken(st, t);
    Auth.SaveThenGet(st, t);
    assert u.notifications[1..] == [];
    SlashPathsMatch();
  }

  /**
   * Changing credentials signs the visitor out: after a successful submission, and delivery of
   * the notification it dispatched, the shell holds no token and the settings path redirects to
   * the login page.
   */
  lemma CredentialsChangeSignsOut(token: Option<string>, f: Settings.Form, st: Auth.Storage, detail: Option<string>)
    requires Settings.Validate(f.newUsername, f.newPassword, f.confirmPassword).None?
    ensures var sub := Settings.Submit(f, st, Settings.Responded(true, detail));
      && Deliver(token, sub.notifications, sub.storage) == None
      && Resolve("/settings", Deliver(token, sub.notifications, sub.storage)) == Redirect("/login")
  {
    var sub := Settings.Submit(f, st, Settings.Responded(true, detail));
    assert sub.notifications[1..] == [];
    SlashPathsMatch();
  }
}

=== FILE: settings.dfy ===
/**
 * The change-credentials form: the order of its validation checks and what a submission does
 * with the server's answer (message, error, busy flag, stored token).
 */
module Settings {
  import opened Options
  import Auth

  const NothingToUpdate: string := "Nothing to update"
  const PasswordsDiffer: string := "Passwords do not match"
  const UpdateFailed: string := "Update failed"
  const Updated: string := "Credentials updated. Please sign in again with new values."

  /** The form's fields and the feedback it shows. */
  datatype Form = Form(
    newUsername: string,
    newPassword: string,
    confirmPassword: string,
    loading: bool,
    message: string,
    error: string)

  /**
   * The two checks `onSubmit` makes before sending, in order: something must change, and a new
   * password must match its confirmation. `None` lets the form be sent.
   */
  function Validate(username: string, password: string, confirm: string): (r: Option<string>)
    ensures username == "" && password == "" ==> r == Some(NothingToUpdate)
    ensures (username != "" || password != "") && password != "" && password != confirm ==> r == Some(PasswordsDiffer)
    ensures r == None <==> (username != "" || password != "") && (password == "" || password == confirm)
  {
    if username == "" && password == "" then Some(NothingToUpdate)
    else if password != "" && password != confirm then Some(PasswordsDiffer)
    else None
  }

  /** "Nothing to update" wins over a mismatch, and a username-only change ignores the confirmation field. */
  lemma ValidationPrecedence(username: string, confirm: string, confirm2: string)
    ensures Validate("", "", confirm) == Some(NothingToUpdate)
    ensures username != "" ==> Validate(username, "", confirm) == None
    ensures Validate(username, "", confirm) == Validate(username, "", confirm2)
  {
  }

  /**
   * How the change request ended. `Thrown`: the request or the reading of its answer threw, with
   * the error's message (empty when what was thrown carries none). This includes a non-ok answer
   * whose body is JSON `null`: reading `detail` off `null` throws a `TypeError`, and that error's
   * message is what the form shows. `Responded`: the server answered, with the `detail` field of
   * its JSON body when that is a non-null object holding one; a body that is not JSON reads as
   * an empty object, so `detail` is `None`.
   */
  datatype ChangeOutcome = Thrown(message: string) | Responded(ok: bool, detail: Option<string>)

  /** The error a failed request shows: the server's non-empty `detail`, else the thrown message, else "Update failed". */
  function FailureMessage(outcome: ChangeOutcome): (m: string)
    requires !(outcome.Responded? && outcome.ok)
    ensures m != ""
    ensures outcome.Responded? && outcome.detail.Some? && outcome.detail.value != "" ==> m == outcome.detail.value
    ensures outcome.Responded? && (outcome.detail.None? || outcome.detail.value == "") ==> m == UpdateFailed
    ensures outcome.Thrown? && outcome.message != "" ==> m == outcome.message
    ensures outcome.Thrown? && outcome.message == "" ==> m == UpdateFailed
  {
    match outcome
    case Thrown(message) => if message != "" then message else UpdateFailed
    case Responded(_, detail) => if detail.Some? && detail.value != "" then detail.value else UpdateFailed
  }

  datatype Effect =
    | PostChange(url: string, headers: Auth.Headers, newUsername: string, newPassword: string)
    | NavigateToLoginLater

  /** What a submission leaves behind: the form, the storage, the notifications dispatched, the effects started. */
  datatype Submission = Submission(
    form: Form,
    storage: Auth.Storage,
    notifications: seq<Auth.Notification>,
    effects: seq<Effect>)

  /** The request `onSubmit` sends through `authFetch`. */
  function ChangeRequest(f: Form, st: Auth.Storage): Effect {
    var url := Auth.ApiBase + "/auth/change";
    PostChange(url, Auth.AuthHeaders(map[], Auth.GetToken(st), url), f.newUsername, f.newPassword)
  }

  /**
   * `onSubmit` with the outcome of its request. Message and error are cleared first. A form that
   * fails validation shows the validation error and sends nothing. Otherwise the request is sent;
   * success shows the confirmation, clears the stored token and schedules the move to the login
   * page; failure shows the failure message. Either way the form is no longer busy.
   */
  function Submit(f: Form, st: Auth.Storage, outcome: ChangeOutcome): (r: Submission)
    ensures Validate(f.newUsername, f.newPassword, f.confirmPassword).Some? ==>
      && r.form == f.(message := "", error := Validate(f.newUsername, f.newPassword, f.confirmPassword).value)
      && r.storage == st && r.notifications == [] && r.effects == []
    ensures Validate(f.newUsername, f.newPassword, f.confirmPassword).None? ==>
      && !r.form.loading
      && |r.effects| > 0 && r.effects[0] == ChangeRequest(f, st)
      && r.form.(message := f.message, error := f.error, loading := f.loading) == f
    ensures Validate(f.newUsername, f.newPassword, f.confirmPassword).None? && outcome.Responded? && outcome.ok ==>
      && r.form.message == Updated && r.form.error == ""
      && Auth.GetToken(r.storage) == None
      && r.notifications == [Auth.AuthTokenChanged]
      && NavigateToLoginLater in r.effects
      && r.storage == Auth.ClearToken(st).storage
      && r.effects == [ChangeRequest(f, st), NavigateToLoginLater]
    ensures Validate(f.newUsername, f.newPassword, f.confirmPassword).None? && !(outcome.Responded? && outcome.ok) ==>
      && r.form.message == "" && r.form.error == FailureMessage(outcome)
      && r.storage == st && r.notifications == [] && r.effects == [ChangeRequest(f, st)]
  {
    var cleared := f.(message := "", error := "");
    match Validate(f.newUsername, f.newPassword, f.confirmPassword)
    case Some(err) => Submission(cleared.(error := err), st, [], [])
    case None =>
      var request := ChangeRequest(f, st);
      if outcome.Responded? && outcome.ok then
        var signedOut := Auth.ClearToken(st);
        Auth.ClearThenGet(st);
        Submission(cleared.(message := Updated, loading := false), signedOut.storage,
                   signedOut.notifications, [request, NavigateToLoginLater])
      else
        Submission(cleared.(error := FailureMessage(outcome), loading := false), st, [], [request])
  }

  /** A submission never shows a confirmation and an error at once, and always shows one of them. */
  lemma SubmitShowsExactlyOneFeedback(f: Form, st: Auth.Storage, outcome: ChangeOutcome)
    ensures var g := Submit(f, st, outcome).form; (g.message == "") != (g.error == "")
  {
  }

  /** Starting from an idle form, the form is idle again once submit is done, whichever path it took. */
  lemma SubmitEndsIdle(f: Form, st: Auth.Storage, outcome: ChangeOutcome)
    requires !f.loading
    ensures !Submit(f, st, outcome).form.loading
  {
  }

  /** The change request carries the stored bearer token when there is one. */
  lemma ChangeRequestCarriesToken(f: Form, st: Auth.Storage)
    requires Auth.HasToken(Auth.GetToken(st))
    ensures ChangeRequest(f, st).headers[Auth.Authorization] == "Bearer " + Auth.GetToken(st).value
    ensures ChangeRequest(f, st).headers[Auth.ContentType] == "application/json"
  {
  }

  /** The page sends a visitor without a token to the login page as soon as it is shown. */
  function RedirectsOnMount(st: Auth.Storage): (r: bool)
    ensures r <==> !Auth.HasToken(Auth.GetToken(st))
  {
    var token := Auth.GetToken(st);
    !(token.Some? && token.value != "")
  }
}

=== FILE: subsequences.dfy ===
/**
 * `Array.prototype.filter` and what it promises: the kept elements are exactly those that
 * satisfy the predicate, and they appear in their original relative order.
 */
module Subsequences {

  /** Keeps the elements of `s` that satisfy `p`, in the order they appear in `s`. */
  function Filter<T>(s: seq<T>, p: T -> bool): (r: seq<T>)
    ensures |r| <= |s|
    ensures forall i :: 0 <= i < |r| ==> p(r[i])
    ensures forall x :: x in r ==> x in s
  {
    if |s| == 0 then []
    else (if p(s[0]) then [s[0]] else []) + Filter(s[1..], p)
  }

  /** `idx` lists, in strictly increasing order, positions of `s` that hold the elements of `r`. */
  ghost predicate Embeds<T>(idx: seq<int>, r: seq<T>, s: seq<T>) {
    && |idx| == |r|
    && (forall k :: 0 <= k < |idx| ==> 0 <= idx[k] < |s| && r[k] == s[idx[k]])
    && (forall k, l :: 0 <= k < l < |idx| ==> idx[k] < idx[l])
  }

  /** `r` is `s` with some elements deleted and the rest left in order. */
  ghost predicate IsSubsequence<T>(r: seq<T>, s: seq<T>) {
    exists idx :: Embeds(idx, r, s)
  }

  function Shift(idx: seq<int>): (r: seq<int>)
    ensures |r| == |idx| && forall k :: 0 <= k < |idx| ==> r[k] == idx[k] + 1
  {
    seq(|idx|, k requires 0 <= k < |idx| => idx[k] + 1)
  }

  /** The positions of `s` whose element satisfies `p`, from first to last. */
  function Positions<T>(s: seq<T>, p: T -> bool): seq<int> {
    if |s| == 0 then []
    else (if p(s[0]) then [0] else []) + Shift(Positions(s[1..], p))
  }

  /** Shifting an embedding into `s[1..]` by one position gives an embedding into `s`, with or without `s[0]` in front. */
  lemma EmbedsShift<T>(idx: seq<int>, r: seq<T>, s: seq<T>)
    requires |s| > 0 && Embeds(idx, r, s[1..])
    ensures Embeds(Shift(idx), r, s)
    ensures Embeds([0] + Shift(idx), [s[0]] + r, s)
  {
    var sh := Shift(idx);
    forall k | 0 <= k < |sh|
      ensures 0 <= sh[k] < |s| && r[k] == s[sh[k]]
    {
      assert r[k] == s[1..][idx[k]];
    }
    var idx', r' := [0] + sh, [s[0]] + r;
    forall k | 0 < k < |idx'|
      ensures 0 < idx'[k] < |s| && r'[k] == s[idx'[k]]
    {
      assert idx'[k] == sh[k - 1] && r'[k] == r[k - 1];
    }
  }

  /** The elements `Filter` keeps sit, in order, at the positions `Positions` lists. */
  lemma {:induction false} FilterEmbedding<T>(s: seq<T>, p: T -> bool)
    ensures Embeds(Positions(s, p), Filter(s, p), s)
  {
    if |s| > 0 {
      var tail := s[1..];
      FilterEmbedding(tail, p);
      EmbedsShift(Positions(tail, p), Filter(tail, p), s);
      if p(s[0]) {
        assert Positions(s, p) == [0] + Shift(Positions(tail, p));
        assert Filter(s, p) == [s[0]] + Filter(tail, p);
      } else {
        assert Positions(s, p) == Shift(Positions(tail, p));
        assert Filter(s, p) == Filter(tail, p);
      }
    }
  }

  /** `Positions` lists exactly the positions where `p` holds: nothing satisfying `p` is dropped, nothing else kept. */
  lemma {:induction false} PositionsExact<T>(s: seq<T>, p: T -> bool)
    ensures forall i :: 0 <= i < |s| ==> (p(s[i]) <==> i in Positions(s, p))
    ensures forall j :: j in Positions(s, p) ==> 0 <= j < |s|
  {
    if |s| > 0 {
      var tail := s[1..];
      var idxT := Positions(tail, p);
      PositionsExact(tail, p);
      var sh := Shift(idxT);
      var idx := Positions(s, p);
      assert idx == (if p(s[0]) then [0] else []) + sh;
      forall j | j in sh
        ensures 1 <= j <= |tail|
      {
        var k :| 0 <= k < |sh| && sh[k] == j;
        assert idxT[k] in idxT;
      }
      forall i | 0 < i < |s|
        ensures p(s[i]) <==> i in idx
      {
        assert s[i] == tail[i - 1];
        if i - 1 in idxT {
          var k :| 0 <= k < |idxT| && idxT[k] == i - 1;
          assert sh[k] == i;
        }
        if i in sh {
          var k :| 0 <= k < |sh| && sh[k] == i;
          assert idxT[k] == i - 1;
        }
      }
    }
  }

  /** `Filter` yields a subsequence of its input. */
  lemma FilterIsSubsequence<T>(s: seq<T>, p: T -> bool)
    ensures IsSubsequence(Filter(s, p), s)
  {
    FilterEmbedding(s, p);
  }

  /** Every element of `s` that satisfies `p` survives `Filter`. */
  lemma FilterKeeps<T>(s: seq<T>, p: T -> bool, i: int)
    requires 0 <= i < |s| && p(s[i])
    ensures s[i] in Filter(s, p)
  {
    FilterEmbedding(s, p);
    PositionsExact(s, p);
    var idx := Positions(s, p);
    var k :| 0 <= k < |idx| && idx[k] == i;
    assert Filter(s, p)[k] == s[i];
  }

  /** Membership in the result: present in `s` and satisfying `p`, both directions. */
  lemma FilterMembership<T>(s: seq<T>, p: T -> bool, x: T)
    ensures x in Filter(s, p) <==> x in s && p(x)
  {
    if x in s && p(x) {
      var i :| 0 <= i < |s| && s[i] == x;
      FilterKeeps(s, p, i);
    }
  }

}

=== FILE: text.dfy ===
/**
 * The string operations of the JavaScript runtime that the dashboard relies on:
 * `String.prototype.trim`, `String.prototype.indexOf`, case-insensitive matching of an
 * ASCII pattern, and the decimal rendering of a non-negative integer.
 */
module Text {

  /**
   * The characters `trim` removes: the WhiteSpace and LineTerminator code points of
   * ECMAScript (ECMA-262, sections 12.2 and 12.3), including every space separator (Zs).
   */
  predicate IsTrimmable(c: char) {
    || c == '\U{9}' || c == '\U{B}' || c == '\U{C}' || c == ' ' || c == '\U{A0}' || c == '\U{FEFF}'
    || c == '\U{A}' || c == '\U{D}' || c == '\U{2028}' || c == '\U{2029}'
    || c == '\U{1680}' || ('\U{2000}' <= c <= '\U{200A}') || c == '\U{202F}' || c == '\U{205F}'
    || c == '\U{3000}'
  }

  /** Every character of `s` is trimmable. */
  predicate AllTrimmable(s: string) {
    forall i :: 0 <= i < |s| ==> IsTrimmable(s[i])
  }

  /** Drops the leading trimmable characters: the result is the suffix that starts at the first other character. */
  function TrimStart(s: string): (r: string)
    ensures |r| <= |s| && r == s[|s| - |r|..]
    ensures forall i :: 0 <= i < |s| - |r| ==> IsTrimmable(s[i])
    ensures r == [] || !IsTrimmable(r[0])
  {
    if |s| > 0 && IsTrimmable(s[0]) then TrimStart(s[1..]) else s
  }

  /** Drops the trailing trimmable characters: the result is the prefix that ends at the last other character. */
  function TrimEnd(s: string): (r: string)
    ensures |r| <= |s| && r == s[..|r|]
    ensures forall i :: |r| <= i < |s| ==> IsTrimmable(s[i])
    ensures r == [] || !IsTrimmable(r[|r| - 1])
  {
    if |s| > 0 && IsTrimmable(s[|s| - 1]) then TrimEnd(s[..|s| - 1]) else s
  }

  /** `r` is `s[i..i + |r|]` and every character of `s` outside that slice is trimmable. */
  predicate IsTrimmedSlice(s: string, r: string, i: int) {
    && 0 <= i <= |s| - |r|
    && r == s[i..i + |r|]
    && AllTrimmable(s[..i])
    && AllTrimmable(s[i + |r|..])
  }

  /**
   * Cutting off `s` a suffix `t`, and off `t` a prefix `r`, where everything cut away is
   * trimmable, leaves `r` as a trimmed slice of `s`.
   */
  lemma SliceOfSuffix(s: string, t: string, r: string)
    requires |t| <= |s| && t == s[|s| - |t|..] && forall k :: 0 <= k < |s| - |t| ==> IsTrimmable(s[k])
    requires |r| <= |t| && r == t[..|r|] && forall j :: |r| <= j < |t| ==> IsTrimmable(t[j])
    ensures IsTrimmedSlice(s, r, |s| - |t|)
  {
    var i := |s| - |t|;
    assert AllTrimmable(s[..i]);
    assert s[i + |r|..] == t[|r|..];
    assert r == s[i..i + |r|];
  }

  /** Stripping the leading, then the trailing, trimmable characters leaves a slice of `s` with only trimmable characters around it. */
  lemma {:induction false} TrimmedIsSlice(s: string)
    ensures IsTrimmedSlice(s, TrimEnd(TrimStart(s)), |s| - |TrimStart(s)|)
  {
    var t := TrimStart(s);
    var r := TrimEnd(t);
    SliceOfSuffix(s, t, r);
  }

  /** `s.trim()`: a contiguous slice of `s` with neither end trimmable, everything cut away trimmable. */
  function Trim(s: string): (r: string)
    ensures exists i :: IsTrimmedSlice(s, r, i)
    ensures r == [] || (!IsTrimmable(r[0]) && !IsTrimmable(r[|r| - 1]))
  {
    TrimmedIsSlice(s);
    TrimEnd(TrimStart(s))
  }

  /** A string whose ends are not trimmable is its own trim. */
  lemma {:induction false} TrimOfTrimmed(s: string)
    requires s == [] || (!IsTrimmable(s[0]) && !IsTrimmable(s[|s| - 1]))
    ensures Trim(s) == s
  {
    assert TrimStart(s) == s;
  }

  /** Trimming twice is trimming once. */
  lemma TrimIdempotent(s: string)
    ensures Trim(Trim(s)) == Trim(s)
  {
    TrimOfTrimmed(Trim(s));
  }

  /** `sub` occurs in `s` at position `i`. */
  predicate OccursAt(s: string, sub: string, i: int) {
    0 <= i && i + |sub| <= |s| && s[i..i + |sub|] == sub
  }

  /** `s.indexOf(sub, from)`: the first position at or after `from` where `sub` occurs, or -1. */
  function IndexOfFrom(s: string, sub: string, from: nat): (r: int)
    ensures r == -1 || (from <= r && OccursAt(s, sub, r))
    ensures forall j :: from <= j && (r == -1 || j < r) ==> !OccursAt(s, sub, j)
    decreases |s| - from
  {
    if from + |sub| > |s| then -1
    else if s[from..from + |sub|] == sub then from
    else IndexOfFrom(s, sub, from + 1)
  }

  /** `s.indexOf(sub)`. */
  function IndexOf(s: string, sub: string): (r: int)
    ensures r == -1 <==> forall j :: !OccursAt(s, sub, j)
    ensures r != -1 ==> OccursAt(s, sub, r) && forall j :: 0 <= j < r ==> !OccursAt(s, sub, j)
  {
    IndexOfFrom(s, sub, 0)
  }

  /** `s.includes(sub)`. */
  predicate Contains(s: string, sub: string) {
    IndexOf(s, sub) != -1
  }

  function AsciiLowerChar(c: char): char {
    if 'A' <= c <= 'Z' then (c as int + 32) as char else c
  }

  /** Folds ASCII upper-case letters to lower case and leaves every other character alone. */
  function AsciiLower(s: string): (r: string)
    ensures |r| == |s|
    ensures forall i :: 0 <= i < |s| ==> r[i] == AsciiLowerChar(s[i])
  {
    seq(|s|, i requires 0 <= i < |s| => AsciiLowerChar(s[i]))
  }

  /** Folding twice is folding once. */
  lemma AsciiLowerIdempotent(s: string)
    ensures AsciiLower(AsciiLower(s)) == AsciiLower(s)
  {
  }

  /** Folding distributes over concatenation. */
  lemma AsciiLowerAppend(s: string, t: string)
    ensures AsciiLower(s + t) == AsciiLower(s) + AsciiLower(t)
  {
  }

  /**
   * A case-insensitive regular-expression test `/pat/i.test(s)` for a pattern of lower-case
   * ASCII letters: without the `u` flag, case folding never maps a non-ASCII character to an
   * ASCII one, so folding ASCII letters alone is exact.
   */
  predicate ContainsIgnoringAsciiCase(s: string, pat: string) {
    Contains(AsciiLower(s), pat)
  }

  function DigitChar(d: nat): char
    requires d < 10
  {
    ('0' as int + d) as char
  }

  /** `String(n)` for a non-negative integer `n`: its decimal digits, most significant first. */
  function Decimal(n: nat): (r: string)
    ensures |r| > 0 && forall i :: 0 <= i < |r| ==> '0' <= r[i] <= '9'
  {
    if n < 10 then [DigitChar(n)] else Decimal(n / 10) + [DigitChar(n % 10)]
  }
}
